=== FILE: README.md ===
# SurveyCouncil in Dafny

SurveyCouncil is a confidential survey ledger. A single survey accepts one
encrypted ballot per address during its voting window. It adds each ballot
homomorphically to the chosen option's encrypted tally. Only after the
admin finalises the survey does it release the tally handles, and then only
to authorised viewers. Around the ledger sits a frontend whose small pure
helpers interpret the ledger's state: the countdown, the survey list's
badges and texts, the read hooks, and the normalisation of decrypted
tallies.

This project models both halves:

- `survey_council.dfy` (`SurveyCouncil`): the ledger as an immutable
  record with one pure transition function per call. Every call takes the
  sender and, where the contract reads the clock, the block time `now`. It
  returns either the new ledger with the events it emits, or the **set** of
  custom errors whose guards fail. The contract raises one member of that
  set, and which member wins when several guards fail is left open.
- `ledger_invariant.dfy` (`LedgerInvariant`): the ledger invariant. It
  holds the option and window bounds. It says the voter count equals both
  the number of voters and the number of ballots added to the tallies. It
  places the admin among the viewers, keeps other viewers out until
  finalisation, and keeps the queue empty after it.
- `ledger_trace.dfy` (`LedgerTrace`): arbitrary sequences of transactions,
  where a reverted call leaves the ledger unchanged. It proves the
  guarantees that hold under any serialisation: the invariant, at most one
  vote per address, growth-only ballots and viewers, and finalisation as a
  one-way barrier.
- `ledger_scenarios.dfy` (`LedgerScenarios`): the behaviours the test
  suite exercises, stated for every ledger and every parameter.
- `countdown.dfy` (`Countdown`): `calculateTimeLeft`, the urgency colour
  and the widget text.
- `survey_list.dfy` (`SurveyList`): the list page's status badge,
  remaining-time text, category colour and missing-info defaults.
- `survey_hooks.dfy` (`SurveyHooks`): the status label map, the survey-info
  decoding, the admin check and the number reads.
- `fhe_decrypt.dfy` (`FheDecrypt`): the normalisation step of
  `publicDecryptHandles`.
- `js_number.dfy` (`JsNumber`): `Number()` of an integer, as rounding to
  the nearest double.
- `contract_config.dfy` (`ContractConfig`): the deployed surveys, the
  contract-address rule, the status table, and the error and event
  vocabulary of the contract interface.
- `text.dfy` (`Text`) and `wrappers.dfy` (`Wrappers`): string helpers
  (ASCII lower-casing, decimal rendering, `padStart`) and `Option` /
  `Result`.

The Solidity contract's source is not part of this model. The ledger's
behaviour is taken from three places: its test suite
(`test/SurveyCouncil.test.js`), the documented catalogue in
`test/SurveyCouncil.basic.test.js`, and the contract interface in
`frontend/src/config/contracts.ts`.

Two behaviours are fixed by the tests themselves:

- The deadline can be extended after it has passed
  (`test/SurveyCouncil.basic.test.js:134-137`), so `ExtendVoting` only
  requires the survey not to be finalised.
- The admin can view results straight after deployment
  (`test/SurveyCouncil.test.js:66-68`), so the admin is a viewer from the
  start.

The catalogue of viewer errors (`test/SurveyCouncil.basic.test.js:173-176`)
lists `InvalidViewer` for the zero address without tying it to one call, so
both queueing and granting refuse the zero address.

Where the tests are silent, the model makes three choices of its own:

- Queueing an address that is already queued succeeds without change.
- `finalize` empties the queue.
- An out-of-range option id on `getTally` is refused with `InvalidOption`.

The frontend reads the contract's unsigned integers with JavaScript's
`Number()`. `js_number.dfy` (`JsNumber`) models that conversion as rounding
to the nearest double. Safe integers, up to 2^53 - 1, convert exactly, and
larger ones can lose their low bits.

## Model

| member | source | states |
|---|---|---|
| SurveyCouncil.Deploy | test/SurveyCouncil.test.js:39-97 | deployment succeeds exactly for 2..32 options and a 1-hour..30-day duration. Otherwise the failure holds `InvalidOptionsLength` exactly when the option count is out of range, and `InvalidDuration` exactly when the duration is, and nothing else. On success the admin is the deployer and the only viewer, `end - start` is the duration, nothing is finalised, voted or queued, every option's tally is an encrypted zero, and `SurveyCreated(title, count, end)` is emitted |
| SurveyCouncil.HomAdd | test/SurveyCouncil.basic.test.js:128-132 | adding a ballot's ciphertext extends a tally's derivation by exactly one addend and keeps everything already in it |
| SurveyCouncil.StatusCode | frontend/src/config/contracts.ts:352-358 | every status is returned as a code below 4 |
| SurveyCouncil.StatusOfCode | frontend/src/config/contracts.ts:352-358 | a code names a status exactly when it is below 4, and then it names the status whose code it is |
| SurveyCouncil.VotingStatus | scripts/check-status.js:29-37 | FINALIZED iff finalised; otherwise NOT_STARTED iff before the start, ENDED iff after the end, ACTIVE iff inside the closed window |
| SurveyCouncil.TimeRemaining | test/SurveyCouncil.test.js:369-378 | zero exactly from the deadline on; before it, the remaining seconds added to `now` reach the deadline |
| SurveyCouncil.CastVote | test/SurveyCouncil.test.js:100-153 | a vote is accepted exactly inside the window, from an address that has not voted, for an existing option, with a proof the verifier accepts. Each error is in the failure exactly when its own condition is broken, and no other error appears. On success the voter is recorded, the count rises by one, only the chosen tally gains the ballot's ciphertext, and `VoteCast(voter, option, now)` is emitted |
| SurveyCouncil.ExtendVoting | test/SurveyCouncil.test.js:177-221 | only the admin may extend, only before finalisation, only to a strictly later deadline. Each error (`NotAdmin`, `AlreadyFinalized`, `InvalidDuration`) is in the failure exactly when its own condition is broken. On success only the deadline changes and `VotingExtended(old, new)` is emitted |
| SurveyCouncil.Finalize | test/SurveyCouncil.test.js:224-256 | only the admin may finalise, only once, only strictly after the deadline. Each error (`NotAdmin`, `AlreadyFinalized`, `VotingNotEnded`) is in the failure exactly when its own condition is broken. On success every queued address becomes a viewer, the queue empties, ballots are untouched, and `Finalized(now, totalVoters)` is emitted |
| SurveyCouncil.QueueViewer | test/SurveyCouncil.test.js:262-291 | only the admin may queue, only before finalisation, and not the zero address or an existing viewer. `NotAdmin`, `AlreadyFinalized`, `InvalidViewer` and `AlreadyAuthorized` are each in the failure exactly when their own condition is broken, so a non-admin queueing an acceptable address gets `NotAdmin` alone. On success exactly that address joins the queue and `ViewerQueued` is emitted |
| SurveyCouncil.QueueEach | test/SurveyCouncil.test.js:271-279 | a batch is accepted exactly when every entry is non-zero and not a viewer. It then queues all of them, with one `ViewerQueued` event per entry in order. A failure holds only entry errors |
| SurveyCouncil.QueueViewers | test/SurveyCouncil.test.js:271-279 | the batch call is all or nothing: it succeeds exactly when the caller and lifecycle guards and every entry pass. `NotAdmin` and `AlreadyFinalized` are in the failure exactly when their conditions are broken. The entry errors are those of the first bad entry: `InvalidViewer` exactly when it is the zero address, `AlreadyAuthorized` exactly when it is a viewer, and neither when every entry is good. On success the queue grows by exactly the listed addresses, with one `ViewerQueued` per entry in order |
| SurveyCouncil.QueueEachStopsAtFirstBad | test/SurveyCouncil.test.js:271-291 | a batch with a bad entry fails, and its entry errors are exactly those of the first bad entry |
| SurveyCouncil.RemoveQueuedViewer | test/SurveyCouncil.test.js:293-302 | only the admin may remove, only before finalisation, and only a queued address (`NotQueued` otherwise). Each error is in the failure exactly when its own condition is broken. On success exactly that address leaves the queue |
| SurveyCouncil.GrantView | test/SurveyCouncil.test.js:315-342 | only the admin may grant, only after finalisation (`NotFinalized` otherwise), not to the zero address (`InvalidViewer`), and not to an existing viewer (`AlreadyAuthorized`). Each error is in the failure exactly when its own condition is broken. On success exactly that address becomes a viewer and `ViewerGranted` is emitted |
| SurveyCouncil.GrantEach | test/SurveyCouncil.test.js:327-336 | a batch of grants succeeds exactly when its addresses are distinct, non-zero, and none is already a viewer, and then grants them all in order with one `ViewerGranted` each. A failure holds only `InvalidViewer` and `AlreadyAuthorized` |
| SurveyCouncil.GrantEachStopsAtFirstBad | test/SurveyCouncil.basic.test.js:173-176 | a refused batch grant fails with the errors of its first refused entry: `InvalidViewer` exactly when it is the zero address, `AlreadyAuthorized` exactly when it is already a viewer or repeats an earlier entry |
| SurveyCouncil.GrantViewMany | test/SurveyCouncil.test.js:327-336 | the batch grant is all or nothing behind the admin and finalisation guards. `NotAdmin` and `NotFinalized` are in the failure exactly when their conditions are broken. The entry errors are those of the first refused entry: `InvalidViewer` exactly when it is the zero address, `AlreadyAuthorized` exactly when it is already a viewer or listed earlier, and neither when every entry is acceptable. On success it adds exactly the listed addresses to the viewers, with one `ViewerGranted` per entry in order |
| SurveyCouncil.GetSurveyInfo | frontend/src/config/contracts.ts:238-251 | the tuple is (title, start, end, finalised, option count, voter count) in that order |
| SurveyCouncil.GetTally | test/SurveyCouncil.test.js:391-425 | one tally is returned exactly when the survey is finalised, the caller is a viewer and the option exists. `ResultsLocked`, `NotAuthorized` and `InvalidOption` are each in the failure exactly when their own gate fails. The handle returned is the option's tally, never a number |
| SurveyCouncil.GetAllTallies | frontend/src/config/contracts.ts:210-216 | every tally is returned, in option order, exactly when both gates pass, and each entry is what `GetTally` returns for that option. `ResultsLocked` and `NotAuthorized` are each in the failure exactly when their own gate fails |
| LedgerInvariant.DeployValid | test/SurveyCouncil.test.js:54-68 | a fresh deployment satisfies the ledger invariant |
| LedgerInvariant.CastVoteValid | test/SurveyCouncil.test.js:142-153 | an accepted vote keeps the invariant: voters, voter count and ballots added to the tallies stay equal |
| LedgerInvariant.TallySumUpdate | test/SurveyCouncil.basic.test.js:128-132 | replacing one tally changes the sum over all tallies by the difference of the two |
| LedgerTrace.Next | test/SurveyCouncil.basic.test.js:201-205 | a transaction never changes the title, options, admin or start, and a reverted one leaves the ledger as it was |
| LedgerTrace.StepValid | test/SurveyCouncil.basic.test.js:195-205 | every kind of transaction keeps the ledger invariant |
| LedgerTrace.RunValid | test/SurveyCouncil.basic.test.js:195-205 | the invariant holds after any sequence of transactions |
| LedgerTrace.RunGrows | test/SurveyCouncil.basic.test.js:202-205 | over any run the voters, voter count, viewers and deadline only grow, finalisation stays, and each tally only receives further additions, so a counted ballot is never altered |
| LedgerTrace.AtMostOneVote | test/SurveyCouncil.basic.test.js:202 | over any run each address has at most one vote committed, none if it had already voted, and it ends up recorded exactly when it voted before or during the run |
| LedgerTrace.VoterCountMatchesVotes | test/SurveyCouncil.test.js:142-153 | the voter count grows by exactly the number of committed votes |
| LedgerTrace.FinalizedIsBarrier | test/SurveyCouncil.basic.test.js:205 | once finalised, and with later calls made after the deadline, the ledger stays finalised with the same deadline, ballots and empty queue |
| LedgerTrace.FinalizeThenFrozen | test/SurveyCouncil.test.js:344-351 | after a successful finalisation, no later call changes any ballot, and every address queued at that moment can read results for good |
| LedgerScenarios.FreshDeployment | test/SurveyCouncil.test.js:54-68 | a valid deployment is active at its own timestamp, has between 1 second and the full duration left, reports the deployed title, window and option count with 0 voters, and lets exactly the admin read results |
| LedgerScenarios.DeployRejections | test/SurveyCouncil.test.js:69-97 | an out-of-range option count with a good duration fails with exactly `InvalidOptionsLength`, and an out-of-range duration with good options with exactly `InvalidDuration`. This covers the suite's one option, 33 options, 30 minutes and 31 days, and a deployment breaking both bounds carries both errors |
| LedgerScenarios.RevoteRejected | test/SurveyCouncil.test.js:113-121 | an address that has voted is refused `AlreadyVoted` on any later vote, and that is the only error when the rest of the ballot is fine |
| LedgerScenarios.VoteOutsideWindowOrRange | test/SurveyCouncil.test.js:123-140 | with an otherwise good ballot, the refusal is exactly `VotingNotStarted` before the window, exactly `VotingClosed` after it, and exactly `InvalidOption` for a missing option inside it |
| LedgerScenarios.StatusLifecycle | test/SurveyCouncil.test.js:156-174 | ACTIVE inside the window, ENDED with no time left after it, and FINALIZED at every time once finalised |
| LedgerScenarios.ExtendThenVote | test/SurveyCouncil.test.js:455-476 | after an extension, a first-time vote between the old and the new deadline is accepted, where the unextended ledger refused it with exactly `VotingClosed` |
| LedgerScenarios.ExtendRefusals | test/SurveyCouncil.test.js:192-221 | a non-admin, a deadline that is not later, and a finalised survey each make the extension fail with exactly that one error |
| LedgerScenarios.FinalizeCloses | test/SurveyCouncil.test.js:249-256 | after finalisation, a second finalise, an extension and a queueing are each refused with exactly `AlreadyFinalized`, and every previously queued address can read results |
| LedgerScenarios.FinalizeRefusals | test/SurveyCouncil.test.js:235-247 | finalising before the deadline fails with exactly `VotingNotEnded`, and finalising by a non-admin after it with exactly `NotAdmin` |
| LedgerScenarios.QueueAndRemove | test/SurveyCouncil.test.js:262-302 | the zero address is refused with exactly `InvalidViewer`. A fresh address queues, shows as queued, and its removal unqueues it and restores the ledger |
| LedgerScenarios.NonAdminQueueRefused | test/SurveyCouncil.test.js:281-285 | a non-admin queueing acceptable addresses before finalisation, singly or in a batch, is refused with exactly `NotAdmin` |
| LedgerScenarios.QueuedViewersListed | test/SurveyCouncil.test.js:380-388 | two addresses queued in turn are both listed among the queued viewers |
| LedgerScenarios.TallyGates | test/SurveyCouncil.test.js:391-425 | before finalisation even the admin gets exactly `ResultsLocked`. After it a stranger gets exactly `NotAuthorized`, while the admin, and the stranger once granted, read all tallies unchanged |
| LedgerScenarios.GrantRefusals | test/SurveyCouncil.basic.test.js:173-177 | a grant of an account before finalisation fails with exactly `NotFinalized`, and a repeated grant with exactly `AlreadyAuthorized`. A refused removal before finalisation is exactly `NotQueued` |
| LedgerScenarios.GrantZeroRefused | test/SurveyCouncil.basic.test.js:173-176 | the admin's grant of the zero address fails with exactly `InvalidViewer` after finalisation, and with that and `NotFinalized` before it. A batch whose first entry is the zero address fails with `InvalidViewer` and without `AlreadyAuthorized` |
| Countdown.CalculateTimeLeft | frontend/src/components/survey/CountdownTimer.tsx:19-35 | with no time left every field and the total are 0. Otherwise the total is the difference, the days, hours, minutes and seconds add back up to it, and hours < 24, minutes < 60, seconds < 60 |
| Countdown.SplitIsUnique | frontend/src/components/survey/CountdownTimer.tsx:29-34 | any clock-normal reading of a positive number of seconds is exactly the one the countdown computes, so the split is unique |
| Countdown.SplitSeconds | frontend/src/components/survey/CountdownTimer.tsx:29-32 | the four quotients and remainders reassemble the difference and stay below their units |
| Countdown.ColorThresholds | frontend/src/components/survey/CountdownTimer.tsx:43-48 | primary iff more than 86400 seconds are left, warning iff more than 3600 and at most 86400, destructive iff at most 3600 |
| Countdown.RenderCountdown | frontend/src/components/survey/CountdownTimer.tsx:50-66 | "Voting Ended" exactly when the deadline is reached, the pulse exactly in the last hour, and the colour by the whole-second thresholds |
| Countdown.TimeOfDayReadsBack | frontend/src/components/survey/CountdownTimer.tsx:75-79 | the `hh:mm:ss` text has colons at positions 2 and 5 and two-digit fields that read back as the hours, minutes and seconds |
| Countdown.ClockTextLayout | frontend/src/components/survey/CountdownTimer.tsx:68-80 | the clock text ends in `hh:mm:ss`, preceded by the days and `d` exactly when at least one day is left |
| SurveyList.StatusBadge | frontend/src/pages/SurveyListPage.tsx:21-30 | "Finalized" whenever finalised; otherwise "Ended" iff now is past the end and "Active" iff it is not |
| SurveyList.BadgeAgreesWithStatus | frontend/src/pages/SurveyListPage.tsx:21-30 | the badge equals the ledger's status, except that a survey that has not started shows as Active |
| SurveyList.RemainingMatchesCountdown | frontend/src/pages/SurveyListPage.tsx:32-42 | "Ended" iff no time is left. Otherwise the text carries the countdown's days (only if at least one) and its hours, which are below 24 |
| SurveyList.RemainingTextEnded | frontend/src/pages/SurveyListPage.tsx:32-42 | the text is "Ended" exactly when no time is left, and otherwise ends in "h remaining" |
| SurveyList.CategoryColor | frontend/src/pages/SurveyListPage.tsx:44-53 | a known category gets its own colour, and every other category gets gray |
| SurveyList.DeployedCategoriesColored | frontend/src/pages/SurveyListPage.tsx:44-53 | no deployed survey's category falls back to gray |
| SurveyList.CardFieldsOf | frontend/src/pages/SurveyListPage.tsx:89-92 | missing survey info reads as end 0, not finalised, 0 voters. Otherwise the flag is kept, a safe-integer deadline or voter count is kept exactly, and a zero voter count stays zero |
| SurveyList.CardFieldsOfLedger | frontend/src/pages/SurveyListPage.tsx:89-92 | a card shows the ledger's finalisation flag, and its deadline and voter count when they are safe integers. With a safe deadline it shows "Ended" exactly when the ledger's deadline is reached. Without info it reads as ended at any positive time |
| SurveyHooks.StatusOf | frontend/src/hooks/useSurveyContract.ts:54-62 | no label until the read arrives, then the code's label |
| SurveyHooks.StatusLabelRoundTrip | frontend/src/hooks/useSurveyContract.ts:54-62 | the label of the code the ledger returns is that status's label. A code has a label iff it names a status, and different codes get different labels |
| SurveyHooks.DecodeSurveyInfo | frontend/src/hooks/useSurveyContract.ts:13-21 | no survey info exactly when the read has not arrived |
| SurveyHooks.DecodeSurveyInfoOfLedger | frontend/src/hooks/useSurveyContract.ts:13-21 | decoding the ledger's tuple yields its title and finalisation flag as they are. Its start, end, option count and voter count come through exactly when they are safe integers, and the end and voter count are otherwise off by at most half the spacing of doubles |
| SurveyHooks.DecodeSurveyInfoInjective | frontend/src/hooks/useSurveyContract.ts:13-21 | for a tuple of safe integers the named fields reassemble into the tuple they came from. Two deadlines of 2^53 and 2^53 + 1 decode alike |
| SurveyHooks.IsAdmin | frontend/src/hooks/useSurveyContract.ts:146-156 | true exactly when both addresses are present and non-empty and agree character by character up to letter case |
| SurveyHooks.IsAdminSymmetric | frontend/src/hooks/useSurveyContract.ts:152 | the admin check does not depend on the order of the two addresses |
| SurveyHooks.IsAdminCaseInsensitive | frontend/src/hooks/useSurveyContract.ts:152 | lower-casing the account address changes nothing, and a present non-empty address matches itself |
| SurveyHooks.ReadNumber | frontend/src/hooks/useSurveyContract.ts:79-81 | the number is missing exactly when the read is missing. A safe integer reads as itself, zero reads as zero and only zero, and any other value is off by at most half the spacing of doubles |
| SurveyHooks.ReadLedgerNumbers | frontend/src/hooks/useSurveyContract.ts:196-203 | the time-remaining read is zero exactly when the deadline is reached, however large the deadline, and a safe voter count reads back exactly |
| FheDecrypt.PublicDecryptHandles | frontend/src/lib/fhe.ts:125-154 | an empty request is refused with its message. Otherwise there is one value per requested handle, and the relayer's encoding and proof pass through |
| FheDecrypt.NormalizeValue | frontend/src/lib/fhe.ts:144 | a big integer becomes a number, with the same value when it is a safe integer and otherwise within half the spacing of doubles. Numbers keep their value and booleans stay booleans |
| FheDecrypt.NormalizedTable | frontend/src/lib/fhe.ts:141-145 | every key of the normalised record is lower-case |
| FheDecrypt.TableHasKey | frontend/src/lib/fhe.ts:142-145 | the record holds a handle's key exactly when some relayer entry is keyed by it up to letter case |
| FheDecrypt.TableLastValue | frontend/src/lib/fhe.ts:142-145 | the record holds the normalised value of the last relayer entry keyed by the handle up to letter case |
| FheDecrypt.PublicDecryptLastMatch | frontend/src/lib/fhe.ts:141-147 | each handle's value is the normalised value of the last relayer entry keyed by it up to letter case, and 0 when there is none |
| FheDecrypt.MissingRecordReadsZero | frontend/src/lib/fhe.ts:142-147 | when the relayer returns no record at all, every handle reads 0 |
| FheDecrypt.PublicDecryptCaseInsensitive | frontend/src/lib/fhe.ts:143-147 | handles that differ only in letter case read the same value |
| FheDecrypt.RelayerCaseIrrelevant | frontend/src/lib/fhe.ts:142-145 | lower-casing the relayer's keys beforehand gives the same record |
| ContractConfig.CouncilAddress | frontend/src/config/contracts.ts:45-51 | the environment value when it exists and starts with "0x", otherwise the first deployed survey's address. Either way the result starts with "0x" |
| ContractConfig.VotingStatusTableMatches | frontend/src/config/contracts.ts:352-358 | the table has one key per status and maps it to the code the ledger returns |
| ContractConfig.ErrorNamed | frontend/src/config/contracts.ts:64-79 | a name that decodes gives a custom error carrying that name |
| ContractConfig.ErrorVocabulary | frontend/src/config/contracts.ts:64-79 | the ledger's custom errors are exactly the interface's 16 distinct error names, each decoding back to itself. The proof rejection is not among them |
| ContractConfig.EventVocabulary | frontend/src/config/contracts.ts:80-135 | every event the ledger emits is declared by the interface, and each declared name is the name of an event of the model |
| ContractConfig.EventsEmitted | frontend/src/config/contracts.ts:80-135 | each of the seven declared events is emitted by a committed transition: deployment, finalisation, grant, queueing, removal, vote and extension each emit exactly one event, under its declared name |
| JsNumber.ToNumber | frontend/src/hooks/useSurveyContract.ts:16-20 | `Number()` of an integer keeps a safe integer exactly, keeps zero and the sign, and otherwise moves it by at most half the spacing of the doubles around it |
| JsNumber.RoundsAboveSafeRange | frontend/src/pages/SurveyListPage.tsx:90 | above the safe range `Number()` merges neighbours: 2^53 + 1 converts to 2^53 |
| Text.ToLower | frontend/src/hooks/useSurveyContract.ts:152 | lower-casing keeps the length and maps each character by itself |
| Text.DecimalRoundTrip | frontend/src/components/survey/CountdownTimer.tsx:71 | the decimal text of a number reads back as that number |
| Text.Decimal | frontend/src/pages/SurveyListPage.tsx:40-41 | a number's decimal text is made of digits, has no leading zero, and is as long as the number needs |
| Text.TwoDigits | frontend/src/components/survey/CountdownTimer.tsx:75-79 | a number below 100 padded to two characters is its tens digit then its units digit, and reads back as the number |

## Left out

- The encryption library: homomorphic addition is a symbolic derivation, and the input-proof check is the `InputVerifier` parameter. A rejected proof is the model's `InputProofRejected` failure, which is not a custom error of the contract.
- The relayer: `initializeFHE`, `encryptVote` and the `publicDecrypt` request are foreign I/O. `PublicDecryptHandles` takes the relayer's answer as a parameter, so a relayer failure, and an SDK that is not initialised, are not modelled.
- Clocks: `Date.now()` and the block timestamp are the `now` parameter. A run does not require its timestamps to be non-decreasing. Only LedgerTrace.FinalizedIsBarrier and LedgerTrace.FinalizeThenFrozen assume that later calls carry later times (`NotBefore`).
- Transaction ordering and concurrency: each call is one atomic step, and runs are explicit sequences.
- The React rendering, the wallet hooks that submit transactions, the results-page percentages, the admin-page parsing, the deployment and status scripts, and the chain configuration are not part of the model.
- `ZamaProtocolUnsupported`: declared by the interface, but no test and no described operation raises it, so no transition of the model does; it appears only in the error vocabulary.
- `getOptions`, `getOptionsCount`, `title`, `admin`, `votingStart`, `votingEnd`, `finalized`, `totalVoters` and `hasVoted` are plain field reads of the `Ledger` record. `CanViewResults`, `IsQueued`, `HasVoted` and `QueuedViewers` are predicates with no contract of their own.
- QueuedViewers: returns the queue as a set, because the order of the contract's array is not observable from the tests.
- CastVote: which error the contract raises when several guards fail is left open; the failure carries all of them.
- Countdown.CalculateTimeLeft / SurveyList.RemainingOf: the frontend subtracts, divides and takes remainders on doubles, and prints numbers with JavaScript's number-to-text conversion. The model uses exact integer arithmetic and plain decimal digits. These agree with the source only while `endTime - now` is a safe integer (at most 2^53 − 1). `extendVoting` puts no cap on the deadline, so a larger deadline is possible. Past that point the source's difference is rounded, as with 2^53 + 2 at second 1. From 10^21 days on the source also prints exponent notation such as "1e+21". The same limit applies to Countdown.SplitIsUnique, Countdown.ClockTextLayout and SurveyList.RemainingTextEnded.
- Integer widths: addresses are unbounded naturals instead of 160-bit values, and the contract's uint256 fields (deadline, option id, voter count) are unbounded naturals. Solidity 0.8 reverts on overflow instead of wrapping, and no value in this model comes near 2^256.
- JsNumber.ToNumber: rounds a magnitude to 53 significant bits. The infinities and the exponent range of doubles are not modelled, since they only matter far beyond any uint256.
- DecodeSurveyInfoInjective: states the round trip only for tuples of safe integers, because above 2^53 - 1 `Number()` rounds and distinct tuples can decode alike.
- DecodeSurveyInfoOfLedger: states exact fields only for safe integers. Beyond them it bounds the error of the deadline and voter count.
- CardFieldsOfLedger: states the exact deadline and voter count, and the agreement of "Ended" with the ledger, only for safe integers. Beyond them the rounded deadline is what the card uses.
- NormalizedTable: takes the relayer's entries in the order given. The JavaScript rule that enumerates integer-like keys first is not modelled.
- Text.ToLower / IsAdmin: lower-casing is ASCII-only, both in the admin check and for the relayer's keys, which covers hexadecimal addresses but not the full Unicode `toLowerCase`.
- CategoryColor: inherited object properties are not modelled. In the source, a category named like one of them, such as "toString", would not fall back to gray. No deployed survey has such a category.
- LedgerInvariant.Valid: `TallySum` counts the ballots added to the tallies. It equals the decrypted total only if every ballot encrypts 1, as the client's do (`frontend/src/lib/fhe.ts:111`). The input proof binds a ballot to its sender and this ledger, and the model does not assume it attests the plaintext.
- LedgerScenarios.TallyGates: requires the stranger to be a non-zero account, since the zero address can never be granted.
- LedgerScenarios.QueueAndRemove: requires the admin not to be the zero address, since a transaction sender never is.
- Events are returned as payloads of each committed call. Indexing and log encoding are not modelled.

=== FILE: contract_config.dfy ===
/**
 * The frontend's view of the deployed contract: the list of surveys, the
 * rule choosing the default contract address, the status-code table, and
 * the contract interface's error and event vocabulary.
 */
module ContractConfig {
  import opened Wrappers
  import opened Text
  import opened SurveyCouncil

  datatype SurveyEntry = SurveyEntry(id: nat, title: string, address: string, category: string)

  /** The deployed surveys, in the order the survey list shows them. */
  const SURVEYS: seq<SurveyEntry> := [
    SurveyEntry(1, "DeFi Protocol Treasury Allocation",
                "0xd5B37C12c306e75913373505BB2D3A2C25349270", "DeFi"),
    SurveyEntry(2, "DAO Governance Model Upgrade",
                "0x086a132059CAb4E15cb8046dA4B051Ef3B44Ebb0", "Governance"),
    SurveyEntry(3, "Layer 2 Scaling Solution Priority",
                "0xF428186adcca7c80ac4994C6a183B76f4e965929", "Infrastructure"),
    SurveyEntry(4, "Token Utility Enhancement Proposal",
                "0xDcBDfDFF47e46EDbfB15812FE177412a6c48d14a", "Tokenomics"),
    SurveyEntry(5, "Community Fund Allocation Q1 2025",
                "0x846cB11cC93FE042b14c912c66e6dFcED9538199", "Treasury")
  ]

  /**
   * `SURVEY_COUNCIL_ADDRESS`: the configured environment value when it is
   * present and starts with "0x", otherwise the first deployed survey. The
   * result always starts with "0x".
   */
  function CouncilAddress(env: Option<string>): (a: string)
    ensures StartsWith(a, "0x")
    ensures env.Some? && StartsWith(env.value, "0x") ==> a == env.value
    ensures !(env.Some? && StartsWith(env.value, "0x")) ==> a == SURVEYS[0].address
  {
    // an empty value is falsy, and it does not start with "0x" either
    if env.Some? && env.value != "" && StartsWith(env.value, "0x") then env.value
    else
      var a := SURVEYS[0].address;
      assert a[0] == '0' && a[1] == 'x';
      assert a[..2] == [a[0], a[1]];
      a
  }

  /** The key of each status in the frontend's `VotingStatus` table. */
  function StatusName(s: Status): string {
    match s
    case NotStarted => "NOT_STARTED"
    case Active => "ACTIVE"
    case Ended => "ENDED"
    case Finalized => "FINALIZED"
  }

  const VOTING_STATUS: map<string, nat> :=
    map["NOT_STARTED" := 0, "ACTIVE" := 1, "ENDED" := 2, "FINALIZED" := 3]

  /**
   * The frontend's table agrees with the codes the contract returns: it has
   * one key per status and maps it to that status's code.
   */
  lemma VotingStatusTableMatches()
    ensures forall s: Status :: StatusName(s) in VOTING_STATUS && VOTING_STATUS[StatusName(s)] == StatusCode(s)
    ensures forall k :: k in VOTING_STATUS ==> exists s: Status :: StatusName(s) == k
  {
    assert StatusName(NotStarted) == "NOT_STARTED";
    assert StatusName(Active) == "ACTIVE";
    assert StatusName(Ended) == "ENDED";
    assert StatusName(Finalized) == "FINALIZED";
  }

  /** The custom errors of the contract interface, in its order. */
  const ABI_ERRORS: seq<string> := [
    "AlreadyAuthorized", "AlreadyFinalized", "AlreadyVoted", "InvalidDuration",
    "InvalidOption", "InvalidOptionsLength", "InvalidViewer", "NotAdmin",
    "NotAuthorized", "NotFinalized", "NotQueued", "ResultsLocked",
    "VotingClosed", "VotingNotEnded", "VotingNotStarted", "ZamaProtocolUnsupported"
  ]

  function ErrorName(e: Error): string {
    match e
    case AlreadyAuthorized => "AlreadyAuthorized"
    case AlreadyFinalized => "AlreadyFinalized"
    case AlreadyVoted => "AlreadyVoted"
    case InvalidDuration => "InvalidDuration"
    case InvalidOption => "InvalidOption"
    case InvalidOptionsLength => "InvalidOptionsLength"
    case InvalidViewer => "InvalidViewer"
    case NotAdmin => "NotAdmin"
    case NotAuthorized => "NotAuthorized"
    case NotFinalized => "NotFinalized"
    case NotQueued => "NotQueued"
    case ResultsLocked => "ResultsLocked"
    case VotingClosed => "VotingClosed"
    case VotingNotEnded => "VotingNotEnded"
    case VotingNotStarted => "VotingNotStarted"
    case ZamaProtocolUnsupported => "ZamaProtocolUnsupported"
    case InputProofRejected => "InputProofRejected"
  }

  /** Decodes a custom error name reported by a revert. */
  function ErrorNamed(name: string): (e: Option<Error>)
    ensures e.Some? ==> ErrorName(e.value) == name && IsCustomError(e.value)
  {
    if name == "AlreadyAuthorized" then Some(AlreadyAuthorized)
    else if name == "AlreadyFinalized" then Some(AlreadyFinalized)
    else if name == "AlreadyVoted" then Some(AlreadyVoted)
    else if name == "InvalidDuration" then Some(InvalidDuration)
    else if name == "InvalidOption" then Some(InvalidOption)
    else if name == "InvalidOptionsLength" then Some(InvalidOptionsLength)
    else if name == "InvalidViewer" then Some(InvalidViewer)
    else if name == "NotAdmin" then Some(NotAdmin)
    else if name == "NotAuthorized" then Some(NotAuthorized)
    else if name == "NotFinalized" then Some(NotFinalized)
    else if name == "NotQueued" then Some(NotQueued)
    else if name == "ResultsLocked" then Some(ResultsLocked)
    else if name == "VotingClosed" then Some(VotingClosed)
    else if name == "VotingNotEnded" then Some(VotingNotEnded)
    else if name == "VotingNotStarted" then Some(VotingNotStarted)
    else if name == "ZamaProtocolUnsupported" then Some(ZamaProtocolUnsupported)
    else None
  }

  /** The error the interface lists at position `i`. */
  function ListedError(i: nat): (e: Error)
    requires i < |ABI_ERRORS|
    ensures IsCustomError(e) && ErrorName(e) == ABI_ERRORS[i]
  {
    [AlreadyAuthorized, AlreadyFinalized, AlreadyVoted, InvalidDuration,
     InvalidOption, InvalidOptionsLength, InvalidViewer, NotAdmin,
     NotAuthorized, NotFinalized, NotQueued, ResultsLocked,
     VotingClosed, VotingNotEnded, VotingNotStarted, ZamaProtocolUnsupported][i]
  }

  /** Every custom error of the model is listed by the interface, under its own name. */
  lemma CustomErrorsListed(e: Error)
    requires IsCustomError(e)
    ensures exists i :: 0 <= i < |ABI_ERRORS| && ListedError(i) == e
  {
    var i := match e
      case AlreadyAuthorized => 0 case AlreadyFinalized => 1 case AlreadyVoted => 2
      case InvalidDuration => 3 case InvalidOption => 4 case InvalidOptionsLength => 5
      case InvalidViewer => 6 case NotAdmin => 7 case NotAuthorized => 8
      case NotFinalized => 9 case NotQueued => 10 case ResultsLocked => 11
      case VotingClosed => 12 case VotingNotEnded => 13 case VotingNotStarted => 14
      case ZamaProtocolUnsupported => 15 case InputProofRejected => 0;
    assert ListedError(i) == e;
  }

  /** Each listed name decodes back to the error listed there. */
  lemma ListedNamesDecode(i: nat)
    requires i < |ABI_ERRORS|
    ensures ErrorNamed(ABI_ERRORS[i]) == Some(ListedError(i))
  {
  }

  /**
   * The model's custom errors are exactly the interface's: every custom
   * error is listed under its own name and decodes back from it, every
   * listed name decodes to a custom error, the listed names are distinct,
   * and the input-proof rejection is not among them.
   */
  lemma ErrorVocabulary()
    ensures forall e: Error :: IsCustomError(e) <==> ErrorName(e) in ABI_ERRORS
    ensures forall e: Error :: IsCustomError(e) ==> ErrorNamed(ErrorName(e)) == Some(e)
    ensures forall i :: 0 <= i < |ABI_ERRORS| ==> ErrorNamed(ABI_ERRORS[i]).Some?
    ensures forall i, j :: 0 <= i < j < |ABI_ERRORS| ==> ABI_ERRORS[i] != ABI_ERRORS[j]
  {
    forall i | 0 <= i < |ABI_ERRORS|
      ensures ErrorNamed(ABI_ERRORS[i]) == Some(ListedError(i))
    {
      ListedNamesDecode(i);
    }
    forall e: Error | IsCustomError(e)
      ensures ErrorName(e) in ABI_ERRORS && ErrorNamed(ErrorName(e)) == Some(e)
    {
      CustomErrorsListed(e);
      var i :| 0 <= i < |ABI_ERRORS| && ListedError(i) == e;
      assert ABI_ERRORS[i] == ErrorName(e);
    }
    assert "InputProofRejected" !in ABI_ERRORS by {
      forall i | 0 <= i < |ABI_ERRORS|
        ensures ABI_ERRORS[i] != "InputProofRejected"
      {
        assert ErrorNamed(ABI_ERRORS[i]).Some?;
      }
    }
    forall i, j | 0 <= i < j < |ABI_ERRORS|
      ensures ABI_ERRORS[i] != ABI_ERRORS[j]
    {
      assert ListedError(i) != ListedError(j);
    }
  }

  /** The event names of the contract interface. */
  const ABI_EVENTS: seq<string> := [
    "Finalized", "SurveyCreated", "ViewerGranted", "ViewerQueued",
    "ViewerRemoved", "VoteCast", "VotingExtended"
  ]

  function EventName(e: Event): string {
    match e
    case SurveyCreated(_, _, _) => "SurveyCreated"
    case VoteCast(_, _, _) => "VoteCast"
    case VotingExtended(_, _) => "VotingExtended"
    case ViewerQueued(_) => "ViewerQueued"
    case ViewerRemoved(_) => "ViewerRemoved"
    case ViewerGranted(_) => "ViewerGranted"
    case SurveyFinalized(_, _) => "Finalized"
  }

  /** Every event the model emits is one the interface declares, and each declared name names an event of the model. */
  lemma EventVocabulary()
    ensures forall e: Event :: EventName(e) in ABI_EVENTS
    ensures forall i :: 0 <= i < |ABI_EVENTS| ==> exists e: Event :: EventName(e) == ABI_EVENTS[i]
  {
    assert EventName(SurveyFinalized(0, 0)) == ABI_EVENTS[0];
    assert EventName(SurveyCreated("", 0, 0)) == ABI_EVENTS[1];
    assert EventName(ViewerGranted(0)) == ABI_EVENTS[2];
    assert EventName(ViewerQueued(0)) == ABI_EVENTS[3];
    assert EventName(ViewerRemoved(0)) == ABI_EVENTS[4];
    assert EventName(VoteCast(0, 0, 0)) == ABI_EVENTS[5];
    assert EventName(VotingExtended(0, 0)) == ABI_EVENTS[6];
  }

  /**
   * Each declared event is emitted by a transition of the ledger: a
   * committed deployment, finalisation, grant, queueing, removal, vote and
   * extension each emit exactly one event, and its name is, in that order,
   * the declared name at positions 1, 0, 2, 3, 4, 5 and 6 of the interface.
   */
  lemma EventsEmitted(l: Ledger, caller: Address, now: nat, title: string, options: seq<string>,
                      duration: nat, optionId: nat, ballot: Ballot, verifier: InputVerifier,
                      newEnd: nat, viewer: Address)
    requires Aligned(l)
    ensures var r := Deploy(caller, now, title, options, duration);
      r.Success? ==> |r.value.events| == 1 && EventName(r.value.events[0]) == ABI_EVENTS[1]
    ensures var r := Finalize(l, caller, now);
      r.Success? ==> |r.value.events| == 1 && EventName(r.value.events[0]) == ABI_EVENTS[0]
    ensures var r := GrantView(l, caller, viewer);
      r.Success? ==> |r.value.events| == 1 && EventName(r.value.events[0]) == ABI_EVENTS[2]
    ensures var r := QueueViewer(l, caller, viewer);
      r.Success? ==> |r.value.events| == 1 && EventName(r.value.events[0]) == ABI_EVENTS[3]
    ensures var r := RemoveQueuedViewer(l, caller, viewer);
      r.Success? ==> |r.value.events| == 1 && EventName(r.value.events[0]) == ABI_EVENTS[4]
    ensures var r := CastVote(l, caller, now, optionId, ballot, verifier);
      r.Success? ==> |r.value.events| == 1 && EventName(r.value.events[0]) == ABI_EVENTS[5]
    ensures var r := ExtendVoting(l, caller, newEnd);
      r.Success? ==> |r.value.events| == 1 && EventName(r.value.events[0]) == ABI_EVENTS[6]
  {
  }
}

=== FILE: countdown.dfy ===
/**
 * The voting-page countdown: the seconds left until the deadline, split into
 * days, hours, minutes and seconds; the urgency colour; and what the widget
 * shows.
 */
module Countdown {
  import opened Wrappers
  import opened Text

  const SECONDS_PER_DAY: nat := 86400
  const SECONDS_PER_HOUR: nat := 3600
  const SECONDS_PER_MINUTE: nat := 60

  datatype TimeLeft = TimeLeft(days: nat, hours: nat, minutes: nat, seconds: nat, total: nat)

  const NO_TIME_LEFT: TimeLeft := TimeLeft(0, 0, 0, 0, 0)

  /** The number of seconds the four fields stand for. */
  function Seconds(t: TimeLeft): nat {
    t.days * SECONDS_PER_DAY + t.hours * SECONDS_PER_HOUR + t.minutes * SECONDS_PER_MINUTE + t.seconds
  }

  /** Each field below its unit's capacity, as on a clock. */
  predicate Normal(t: TimeLeft) {
    t.hours < 24 && t.minutes < 60 && t.seconds < 60
  }

  lemma MulAtLeast(a: int, k: int)
    requires a >= 1 && k > 0
    ensures a * k >= k
  {
    assert a * k == (a - 1) * k + k;
    assert (a - 1) * k >= 0;
  }

  /** `n = q * k + r` with `0 <= r < k` pins down `n / k` and `n % k`. */
  lemma DivModUnique(n: int, k: int, q: int, r: int)
    requires k > 0 && 0 <= r < k && n == q * k + r
    ensures n / k == q && n % k == r
  {
    var q', r' := n / k, n % k;
    assert n == q' * k + r';
    if q' > q {
      assert (q' - q) * k == r - r';
      MulAtLeast(q' - q, k);
    } else if q' < q {
      assert (q - q') * k == r' - r;
      MulAtLeast(q - q', k);
    }
  }

  lemma SplitSeconds(d: nat)
    ensures (d / 86400) * 86400 + ((d % 86400) / 3600) * 3600 + ((d % 3600) / 60) * 60 + d % 60 == d
    ensures (d % 86400) / 3600 < 24 && (d % 3600) / 60 < 60 && d % 60 < 60
  {
    var q, r := d / 86400, d % 86400;
    var h, r2 := r / 3600, r % 3600;
    assert d == q * 86400 + h * 3600 + r2;
    DivModUnique(d, 3600, q * 24 + h, r2);
    var m, s := r2 / 60, r2 % 60;
    DivModUnique(d, 60, q * 1440 + h * 60 + m, s);
  }

  /**
   * `calculateTimeLeft` at wall-clock second `now`: nothing left once the
   * deadline is reached, otherwise the remaining seconds and their clock split.
   */
  function CalculateTimeLeft(endTime: int, now: int): (t: TimeLeft)
    ensures endTime - now <= 0 ==> t == NO_TIME_LEFT
    ensures endTime - now > 0 ==> t.total == endTime - now && Seconds(t) == t.total
    ensures Normal(t)
  {
    var difference := endTime - now;
    if difference <= 0 then NO_TIME_LEFT
    else
      SplitSeconds(difference);
      TimeLeft(difference / 86400, (difference % 86400) / 3600, (difference % 3600) / 60,
               difference % 60, difference)
  }

  /**
   * The split is the only clock-normal one: any day/hour/minute/second
   * reading with hours < 24 and minutes, seconds < 60 that stands for a
   * positive number of seconds is exactly what the countdown shows for it.
   */
  lemma SplitIsUnique(t: TimeLeft, now: int)
    requires Normal(t) && t.total == Seconds(t) && t.total > 0
    ensures CalculateTimeLeft(now + t.total, now) == t
  {
    var d := t.total;
    DivModUnique(d, 86400, t.days, t.hours * 3600 + t.minutes * 60 + t.seconds);
    DivModUnique(d % 86400, 3600, t.hours, t.minutes * 60 + t.seconds);
    DivModUnique(d, 3600, t.days * 24 + t.hours, t.minutes * 60 + t.seconds);
    DivModUnique(d % 3600, 60, t.minutes, t.seconds);
    DivModUnique(d, 60, t.days * 1440 + t.hours * 60 + t.minutes, t.seconds);
  }

  /** `getColorClass`: urgency from the remaining time in (fractional) hours. */
  function ColorClass(t: TimeLeft): string {
    var totalHours := t.total as real / 3600.0;
    if totalHours > 24.0 then "text-primary"
    else if totalHours > 1.0 then "text-warning"
    else "text-destructive"
  }

  /** The colour thresholds in whole seconds: more than a day, more than an hour, else urgent. */
  lemma ColorThresholds(t: TimeLeft)
    ensures ColorClass(t) == "text-primary" <==> t.total > 86400
    ensures ColorClass(t) == "text-warning" <==> 3600 < t.total <= 86400
    ensures ColorClass(t) == "text-destructive" <==> t.total <= 3600
  {
    var x := t.total as real;
    var totalHours := x / 3600.0;
    assert totalHours * 3600.0 == x;
    assert totalHours > 24.0 <==> x > 86400.0;
    assert totalHours > 1.0 <==> x > 3600.0;
  }

  /** `String(n).padStart(2, "0")`. */
  function Pad2(n: nat): string {
    PadStart(Decimal(n), 2, '0')
  }

  /** The days segment, shown only when at least one day is left. */
  function DaysSegment(t: TimeLeft): string {
    if t.days > 0 then Decimal(t.days) + "d" else ""
  }

  /** The zero-padded `hh:mm:ss` segment. */
  function TimeOfDay(t: TimeLeft): string {
    Pad2(t.hours) + ":" + Pad2(t.minutes) + ":" + Pad2(t.seconds)
  }

  /** The digits of the widget: an optional `{days}d`, then `hh:mm:ss`. */
  function ClockText(t: TimeLeft): string {
    DaysSegment(t) + TimeOfDay(t)
  }

  datatype Display =
    | VotingEnded
    | Running(colorClass: string, pulse: bool, clock: string)

  /** What the countdown widget renders for a time-left record. */
  function Render(t: TimeLeft): Display {
    if t.total == 0 then VotingEnded
    else Running(ColorClass(t), t.total < 3600, ClockText(t))
  }

  /**
   * The widget shows "Voting Ended" exactly when the deadline has been
   * reached, pulses exactly in the last hour, and its colour follows the
   * whole-second thresholds.
   */
  lemma RenderCountdown(endTime: int, now: int)
    ensures var d := Render(CalculateTimeLeft(endTime, now));
      && (d == VotingEnded <==> endTime - now <= 0)
      && (d.Running? ==> (d.pulse <==> endTime - now < 3600))
      && (d.Running? ==> (d.colorClass == "text-primary" <==> endTime - now > 86400))
      && (d.Running? ==> (d.colorClass == "text-destructive" <==> endTime - now <= 3600))
  {
    ColorThresholds(CalculateTimeLeft(endTime, now));
  }

  /**
   * The `hh:mm:ss` segment reads back: eight characters, colons at positions
   * 2 and 5, and two-digit fields whose values are the hours, minutes and
   * seconds.
   */
  lemma TimeOfDayReadsBack(t: TimeLeft)
    requires Normal(t)
    ensures var c := TimeOfDay(t);
      && |c| == 8 && c[2] == ':' && c[5] == ':'
      && IsDigits(c[0..2]) && DecimalValue(c[0..2]) == t.hours
      && IsDigits(c[3..5]) && DecimalValue(c[3..5]) == t.minutes
      && IsDigits(c[6..]) && DecimalValue(c[6..]) == t.seconds
  {
    Pad2ReadsBack(t.hours);
    Pad2ReadsBack(t.minutes);
    Pad2ReadsBack(t.seconds);
    ThreeFields(Pad2(t.hours), Pad2(t.minutes), Pad2(t.seconds));
  }

  lemma Pad2ReadsBack(n: nat)
    requires n < 100
    ensures |Pad2(n)| == 2 && IsDigits(Pad2(n)) && DecimalValue(Pad2(n)) == n
  {
    TwoDigits(n);
  }

  lemma ThreeFields(a: string, b: string, d: string)
    requires |a| == 2 && |b| == 2 && |d| == 2
    ensures var c := a + ":" + b + ":" + d;
      |c| == 8 && c[0..2] == a && c[2] == ':' && c[3..5] == b && c[5] == ':' && c[6..] == d
  {
    var c := a + ":" + b + ":" + d;
    assert c[0..2] == a;
    assert c[3..5] == b;
    assert c[6..] == d;
  }

  /**
   * The whole clock text: the `hh:mm:ss` segment at the end, preceded by the
   * days and a "d" exactly when at least one day is left.
   */
  lemma ClockTextLayout(t: TimeLeft)
    requires Normal(t)
    ensures var c := ClockText(t);
      && |c| >= 8
      && c[|c| - 8..] == TimeOfDay(t)
      && (t.days > 0 ==> c[..|c| - 8] == Decimal(t.days) + "d")
      && (t.days == 0 ==> c == TimeOfDay(t))
  {
    TimeOfDayReadsBack(t);
    var c := ClockText(t);
    assert c[|c| - 8..] == TimeOfDay(t);
    assert c[..|c| - 8] == DaysSegment(t);
  }
}

=== FILE: fhe_decrypt.dfy ===
/**
 * The normalisation step of `publicDecryptHandles`: the relayer answers with
 * a record of clear values keyed by handle, in whatever letter case it
 * chooses; the frontend lower-cases the keys, turns big integers into
 * numbers, and reads one value per requested handle, 0 when the relayer
 * returned nothing for it. The relayer itself is a parameter here: its
 * answer is the `RelayerAnswer` passed in.
 */
module FheDecrypt {
  import opened Wrappers
  import opened Text
  import opened JsNumber

  /** A clear value as the relayer returns it. */
  datatype ClearValue = BigIntValue(big: int) | NumberValue(num: int) | BoolValue(flag: bool)

  /** A clear value as the page consumes it: a number or a boolean. */
  datatype Plain = Num(n: int) | Flag(b: bool)

  /**
   * A big integer becomes a number through `Number()`, exact for a safe
   * integer and otherwise rounded to a nearest double; numbers and booleans
   * pass through.
   */
  function NormalizeValue(v: ClearValue): (p: Plain)
    ensures v.BoolValue? <==> p.Flag?
    ensures v.BoolValue? ==> p == Flag(v.flag)
    ensures v.BigIntValue? ==> p.Num? && Abs(p.n - v.big) <= Pow2(ExcessBits(Abs(v.big))) / 2
    ensures v.BigIntValue? && Safe(v.big) ==> p == Num(v.big)
    ensures v.NumberValue? ==> p == Num(v.num)
  {
    match v
    case BigIntValue(n) => Num(ToNumber(n))
    case NumberValue(n) => Num(n)
    case BoolValue(b) => Flag(b)
  }

  /** One entry of the relayer's record, in enumeration order. */
  type Entry = (string, ClearValue)

  datatype RelayerAnswer = RelayerAnswer(
    clearValues: Option<seq<Entry>>, abiEncodedClearValues: string, decryptionProof: string)

  datatype Decrypted = Decrypted(values: seq<Plain>, abiEncoded: string, proof: string)

  /**
   * The `normalized` record: each entry in turn stored under its lower-cased
   * key, so a later entry overwrites an earlier one with the same key up to
   * letter case.
   */
  function NormalizedTable(entries: seq<Entry>): (t: map<string, Plain>)
    ensures forall key :: key in t ==> key == ToLower(key)
    decreases |entries|
  {
    if |entries| == 0 then map[]
    else
      var last := entries[|entries| - 1];
      ToLowerIdempotent(last.0);
      NormalizedTable(entries[..|entries| - 1])[ToLower(last.0) := NormalizeValue(last.1)]
  }

  /** Whether entry `j` is keyed by `key` up to letter case. */
  predicate KeyedBy(entries: seq<Entry>, key: string, j: int) {
    0 <= j < |entries| && ToLower(entries[j].0) == ToLower(key)
  }

  /** Entry `j` is the last one keyed by `key` up to letter case. */
  predicate LastKeyedBy(entries: seq<Entry>, key: string, j: int) {
    KeyedBy(entries, key, j) && forall k :: j < k < |entries| ==> !KeyedBy(entries, key, k)
  }

  /** A handle's value: what the table holds for it, or 0 (`?? 0`). */
  function ValueFor(table: map<string, Plain>, handle: string): Plain {
    var key := ToLower(handle);
    if key in table then table[key] else Num(0)
  }

  const NO_HANDLES: string := "No handles provided for public decryption"

  /**
   * `publicDecryptHandles` after the relayer answered: refused for an empty
   * request; otherwise one value per handle, in the request's order, with
   * the relayer's encoding and proof passed through.
   */
  function PublicDecryptHandles(handles: seq<string>, answer: RelayerAnswer): (r: Result<Decrypted, string>)
    ensures r.Failure? <==> |handles| == 0
    ensures r.Failure? ==> r.error == NO_HANDLES
    ensures r.Success? ==> (&& |r.value.values| == |handles|
                            && r.value.abiEncoded == answer.abiEncodedClearValues
                            && r.value.proof == answer.decryptionProof)
  {
    if |handles| == 0 then Failure(NO_HANDLES)
    else
      var table := NormalizedTable(answer.clearValues.GetOr([]));
      Success(Decrypted(seq(|handles|, i requires 0 <= i < |handles| => ValueFor(table, handles[i])),
                        answer.abiEncodedClearValues, answer.decryptionProof))
  }

  /** The table holds a key exactly when some entry is keyed by it up to letter case. */
  lemma {:induction false} TableHasKey(entries: seq<Entry>, handle: string)
    ensures ToLower(handle) in NormalizedTable(entries) <==> exists j :: KeyedBy(entries, handle, j)
    decreases |entries|
  {
    if |entries| > 0 {
      var n := |entries| - 1;
      var init := entries[..n];
      TableHasKey(init, handle);
      assert NormalizedTable(entries) == NormalizedTable(init)[ToLower(entries[n].0) := NormalizeValue(entries[n].1)];
      forall j | KeyedBy(init, handle, j)
        ensures KeyedBy(entries, handle, j)
      {
        assert entries[j] == init[j];
      }
      forall j | KeyedBy(entries, handle, j) && j < n
        ensures KeyedBy(init, handle, j)
      {
        assert entries[j] == init[j];
      }
      if KeyedBy(entries, handle, n) {
        assert ToLower(handle) in NormalizedTable(entries);
      } else if ToLower(handle) in NormalizedTable(entries) {
        assert ToLower(handle) in NormalizedTable(init);
        var j :| KeyedBy(init, handle, j);
        assert KeyedBy(entries, handle, j);
      } else {
        assert forall j :: !KeyedBy(init, handle, j);
      }
    }
  }

  /** For the last entry keyed by a handle, the table holds that entry's normalised value. */
  lemma {:induction false} TableLastValue(entries: seq<Entry>, handle: string, j: int)
    requires LastKeyedBy(entries, handle, j)
    ensures ToLower(handle) in NormalizedTable(entries)
    ensures NormalizedTable(entries)[ToLower(handle)] == NormalizeValue(entries[j].1)
    decreases |entries|
  {
    var n := |entries| - 1;
    var init := entries[..n];
    if j < n {
      assert !KeyedBy(entries, handle, n);
      assert entries[j] == init[j];
      assert LastKeyedBy(init, handle, j) by {
        forall k | j < k < |init|
          ensures !KeyedBy(init, handle, k)
        {
          assert init[k] == entries[k];
          assert !KeyedBy(entries, handle, k);
        }
      }
      TableLastValue(init, handle, j);
    }
  }

  /**
   * Each requested handle gets the normalised value of the last relayer
   * entry keyed by it up to letter case, and 0 when no entry is.
   */
  lemma PublicDecryptLastMatch(handles: seq<string>, answer: RelayerAnswer, i: nat)
    requires |handles| > 0 && i < |handles|
    ensures var entries := answer.clearValues.GetOr([]);
      var v := PublicDecryptHandles(handles, answer).value.values[i];
      && (forall j :: LastKeyedBy(entries, handles[i], j) ==> v == NormalizeValue(entries[j].1))
      && ((forall j :: !KeyedBy(entries, handles[i], j)) ==> v == Num(0))
  {
    var entries := answer.clearValues.GetOr([]);
    TableHasKey(entries, handles[i]);
    forall j | LastKeyedBy(entries, handles[i], j)
      ensures PublicDecryptHandles(handles, answer).value.values[i] == NormalizeValue(entries[j].1)
    {
      TableLastValue(entries, handles[i], j);
    }
  }

  /** With no record at all, every handle reads 0. */
  lemma MissingRecordReadsZero(handles: seq<string>, abi: string, proof: string)
    requires |handles| > 0
    ensures forall i :: 0 <= i < |handles| ==>
      PublicDecryptHandles(handles, RelayerAnswer(None, abi, proof)).value.values[i] == Num(0)
  {
  }

  /** Two requested handles that differ only in letter case read the same value. */
  lemma PublicDecryptCaseInsensitive(handles: seq<string>, answer: RelayerAnswer, i: nat, j: nat)
    requires i < |handles| && j < |handles|
    requires ToLower(handles[i]) == ToLower(handles[j])
    ensures var r := PublicDecryptHandles(handles, answer);
      r.value.values[i] == r.value.values[j]
  {
  }

  function LowerKeys(entries: seq<Entry>): (e: seq<Entry>)
    ensures |e| == |entries|
    ensures forall i :: 0 <= i < |entries| ==> e[i] == (ToLower(entries[i].0), entries[i].1)
  {
    seq(|entries|, i requires 0 <= i < |entries| => (ToLower(entries[i].0), entries[i].1))
  }

  /** The letter case the relayer uses for its keys makes no difference. */
  lemma {:induction false} RelayerCaseIrrelevant(entries: seq<Entry>)
    ensures NormalizedTable(LowerKeys(entries)) == NormalizedTable(entries)
    decreases |entries|
  {
    if |entries| > 0 {
      var n := |entries| - 1;
      assert LowerKeys(entries)[..n] == LowerKeys(entries[..n]);
      RelayerCaseIrrelevant(entries[..n]);
      ToLowerIdempotent(entries[n].0);
    }
  }
}

=== FILE: js_number.dfy ===
/**
 * JavaScript's `Number(x)` applied to an integer `x` (a `bigint` read from
 * the contract): the nearest IEEE 754 double, a tie going to the even
 * significand. A double has a 53-bit significand, so every integer up to
 * `Number.MAX_SAFE_INTEGER` in magnitude converts exactly, and above that
 * the low bits are rounded away. A uint256 lies far below the largest
 * finite double, so no conversion here yields an infinity.
 */
module JsNumber {
  const TWO_53: nat := 0x20_0000_0000_0000
  const MAX_SAFE_INTEGER: nat := TWO_53 - 1

  function Pow2(k: nat): (p: nat)
    ensures p >= 1
  {
    if k == 0 then 1 else 2 * Pow2(k - 1)
  }

  function Abs(n: int): nat {
    if n < 0 then -n else n
  }

  /** Whether `n` is a safe integer: one a double holds exactly, as do its neighbours. */
  predicate Safe(n: int) {
    Abs(n) <= MAX_SAFE_INTEGER
  }

  /** How many low bits of `m` do not fit in a 53-bit significand. */
  function ExcessBits(m: nat): (e: nat)
    ensures e == 0 <==> m < TWO_53
    ensures e > 0 ==> Pow2(e) <= m
    decreases m
  {
    if m < TWO_53 then 0 else 1 + ExcessBits(m / 2)
  }

  /** Euclidean division by a positive divisor no larger than the dividend. */
  lemma DivideDown(m: nat, unit: nat)
    requires 1 <= unit <= m
    ensures m == (m / unit) * unit + m % unit
    ensures 0 <= m % unit < unit
    ensures (m / unit) * unit >= unit
  {
  }

  /** `m` rounded to a multiple of 2^ExcessBits(m): to the nearest one, a tie to the even one. */
  function RoundMagnitude(m: nat): (x: nat)
    ensures m < TWO_53 ==> x == m
    ensures x == 0 <==> m == 0
    ensures Abs(x - m) <= Pow2(ExcessBits(m)) / 2
  {
    var e := ExcessBits(m);
    if e == 0 then m
    else
      var unit := Pow2(e);
      DivideDown(m, unit);
      var q, rem := m / unit, m % unit;
      var low := q * unit;
      var half := unit / 2;
      assert unit == 2 * half;
      if rem > half || (rem == half && q % 2 == 1) then low + unit else low
  }

  /**
   * `Number(n)` for a `bigint` `n`: a safe integer converts exactly, zero
   * and sign are kept, and any other integer moves by at most half the
   * spacing of the doubles around it.
   */
  function ToNumber(n: int): (x: int)
    ensures Safe(n) ==> x == n
    ensures x == 0 <==> n == 0
    ensures 0 <= x <==> 0 <= n
    ensures Abs(x - n) <= Pow2(ExcessBits(Abs(n))) / 2
  {
    if n < 0 then 0 - RoundMagnitude(-n) else RoundMagnitude(n)
  }

  /** Above the safe range distinct integers can convert alike: 2^53 + 1 reads as 2^53. */
  lemma RoundsAboveSafeRange()
    ensures !Safe(TWO_53 + 1) && ToNumber(TWO_53 + 1) == TWO_53 == ToNumber(TWO_53)
  {
    assert ExcessBits((TWO_53 + 1) / 2) == 0;
    assert ExcessBits(TWO_53 + 1) == 1;
    assert ExcessBits(TWO_53 / 2) == 0;
    assert ExcessBits(TWO_53) == 1;
    assert Pow2(1) == 2;
  }
}

=== FILE: ledger_invariant.dfy ===
/**
 * The invariant every reachable SurveyCouncil ledger keeps, and the proof that
 * deployment establishes it and every transaction preserves it.
 */
module LedgerInvariant {
  import opened Wrappers
  import opened SurveyCouncil

  /** The number of ballots added to all tallies together. */
  ghost function TallySum(ts: seq<Tally>): nat {
    if |ts| == 0 then 0 else TallySum(ts[..|ts| - 1]) + BallotCount(ts[|ts| - 1])
  }

  /**
   * - the option count and the duration bounds hold as at deployment (the
   *   window only ever grows);
   * - `totalVoters` counts exactly the addresses that voted, and that many
   *   ballots sit in the tallies altogether;
   * - the admin can always read results; before finalisation nobody else can,
   *   and afterwards the queue is empty;
   * - queued addresses are never the zero address and never already viewers.
   */
  ghost predicate Valid(l: Ledger) {
    && MIN_OPTIONS <= |l.options| <= MAX_OPTIONS
    && Aligned(l)
    && l.votingStart + MIN_DURATION <= l.votingEnd
    && l.totalVoters == |l.voted|
    && TallySum(l.tallies) == l.totalVoters
    && l.admin in l.granted
    && (!l.finalized ==> l.granted == {l.admin})
    && (l.finalized ==> l.queued == {})
    && ZERO_ADDRESS !in l.queued
    && l.queued !! l.granted
  }

  /** Replacing one tally changes the sum by the difference of the two ballot counts. */
  lemma {:induction false} TallySumUpdate(ts: seq<Tally>, i: nat, t: Tally)
    requires i < |ts|
    ensures TallySum(ts[i := t]) + BallotCount(ts[i]) == TallySum(ts) + BallotCount(t)
  {
    var n := |ts| - 1;
    if i < n {
      assert ts[i := t][..n] == ts[..n][i := t];
      TallySumUpdate(ts[..n], i, t);
    } else {
      assert ts[i := t][..n] == ts[..n];
    }
  }

  lemma {:induction false} TallySumZero(ts: seq<Tally>)
    requires forall i :: 0 <= i < |ts| ==> ts[i] == ENCRYPTED_ZERO
    ensures TallySum(ts) == 0
  {
    if |ts| > 0 {
      TallySumZero(ts[..|ts| - 1]);
    }
  }

  /** A freshly deployed ledger satisfies the invariant. */
  lemma DeployValid(deployer: Address, now: nat, title: string, options: seq<string>, duration: nat)
    ensures var r := Deploy(deployer, now, title, options, duration);
      r.Success? ==> Valid(r.value.ledger)
  {
    var r := Deploy(deployer, now, title, options, duration);
    if r.Success? {
      TallySumZero(r.value.ledger.tallies);
    }
  }

  /**
   * A vote keeps the counts in step: one more voter, one more ballot in
   * exactly one tally.
   */
  lemma CastVoteValid(l: Ledger, voter: Address, now: nat, optionId: nat,
                      ballot: Ballot, verifier: InputVerifier)
    requires Valid(l)
    ensures var r := CastVote(l, voter, now, optionId, ballot, verifier);
      r.Success? ==> Valid(r.value.ledger)
  {
    var r := CastVote(l, voter, now, optionId, ballot, verifier);
    if r.Success? {
      var l' := r.value.ledger;
      assert l'.tallies == l.tallies[optionId := HomAdd(l.tallies[optionId], ballot.encryptedOne)];
      TallySumUpdate(l.tallies, optionId, HomAdd(l.tallies[optionId], ballot.encryptedOne));
    }
  }
}

=== FILE: ledger_scenarios.dfy ===
/**
 * The behaviours the contract's test suite exercises, stated for every
 * ledger and every parameter rather than for one fixture. Where a test
 * expects a particular revert, the lemma states that the failure set is
 * exactly that one error, so no other guard can fire in that situation.
 */
module LedgerScenarios {
  import opened Wrappers
  import opened SurveyCouncil
  import opened LedgerInvariant

  /**
   * A fresh deployment is active at its own timestamp, has the full
   * duration left, counts no voters, lists every option, and lets exactly
   * the admin read results.
   */
  lemma FreshDeployment(deployer: Address, now: nat, title: string, options: seq<string>, duration: nat)
    requires MIN_OPTIONS <= |options| <= MAX_OPTIONS && MIN_DURATION <= duration <= MAX_DURATION
    ensures var r := Deploy(deployer, now, title, options, duration);
      && r.Success?
      && VotingStatus(r.value.ledger, now) == Active
      && 0 < TimeRemaining(r.value.ledger, now) <= duration
      && GetSurveyInfo(r.value.ledger) == (title, now, now + duration, false, |options|, 0)
      && (forall a :: CanViewResults(r.value.ledger, a) <==> a == deployer)
  {
  }

  /**
   * Deployment refusals: an option count outside 2..32 with a good duration
   * fails with exactly `InvalidOptionsLength`, and a duration outside one
   * hour..thirty days with good options with exactly `InvalidDuration`; the
   * suite's own cases (one option, 33 options, 30 minutes, 31 days) are
   * instances.
   */
  lemma DeployRejections(deployer: Address, now: nat, title: string, options: seq<string>, duration: nat,
                         badOptions: seq<string>, badDuration: nat)
    requires MIN_OPTIONS <= |options| <= MAX_OPTIONS && MIN_DURATION <= duration <= MAX_DURATION
    requires |badOptions| < MIN_OPTIONS || |badOptions| > MAX_OPTIONS
    requires badDuration < MIN_DURATION || badDuration > MAX_DURATION
    ensures Deploy(deployer, now, title, badOptions, duration) == Failure({InvalidOptionsLength})
    ensures Deploy(deployer, now, title, options, badDuration) == Failure({InvalidDuration})
    ensures Deploy(deployer, now, title, badOptions, badDuration) == Failure({InvalidOptionsLength, InvalidDuration})
    ensures Deploy(deployer, now, "Test", ["Option 1"], duration) == Failure({InvalidOptionsLength})
    ensures Deploy(deployer, now, "Test", seq(33, _ => "Option"), duration) == Failure({InvalidOptionsLength})
    ensures Deploy(deployer, now, title, options, 30 * 60) == Failure({InvalidDuration})
    ensures Deploy(deployer, now, title, options, 31 * 24 * 60 * 60) == Failure({InvalidDuration})
  {
    assert DeployErrors(|badOptions|, duration) == {InvalidOptionsLength};
    assert DeployErrors(|options|, badDuration) == {InvalidDuration};
    assert DeployErrors(|badOptions|, badDuration) == {InvalidOptionsLength, InvalidDuration};
    assert DeployErrors(1, duration) == {InvalidOptionsLength};
    assert DeployErrors(33, duration) == {InvalidOptionsLength};
    assert DeployErrors(|options|, 30 * 60) == {InvalidDuration};
    assert DeployErrors(|options|, 31 * 24 * 60 * 60) == {InvalidDuration};
  }

  /**
   * The second vote by an address is refused with `AlreadyVoted`, and with
   * nothing else while the rest of the ballot would have been fine.
   */
  lemma RevoteRejected(l: Ledger, voter: Address, now: nat, optionId: nat, ballot: Ballot,
                       now': nat, optionId': nat, ballot': Ballot, verifier: InputVerifier)
    requires Aligned(l)
    requires CastVote(l, voter, now, optionId, ballot, verifier).Success?
    ensures var l' := CastVote(l, voter, now, optionId, ballot, verifier).value.ledger;
      var r := CastVote(l', voter, now', optionId', ballot', verifier);
      && r.Failure? && AlreadyVoted in r.error
      && (l.votingStart <= now' <= l.votingEnd && optionId' < |l.options| && verifier(ballot', voter)
          ==> r.error == {AlreadyVoted})
  {
  }

  /**
   * A first-time voter with a well-formed ballot is refused with exactly
   * `VotingNotStarted` before the window, exactly `VotingClosed` after it,
   * and exactly `InvalidOption` inside it when the option does not exist.
   */
  lemma VoteOutsideWindowOrRange(l: Ledger, voter: Address, now: nat, optionId: nat,
                                 ballot: Ballot, verifier: InputVerifier)
    requires Aligned(l) && l.votingStart <= l.votingEnd
    requires voter !in l.voted && verifier(ballot, voter)
    ensures var r := CastVote(l, voter, now, optionId, ballot, verifier);
      && (now < l.votingStart && optionId < |l.options| ==> r == Failure({VotingNotStarted}))
      && (now > l.votingEnd && optionId < |l.options| ==> r == Failure({VotingClosed}))
      && (l.votingStart <= now <= l.votingEnd && optionId >= |l.options| ==> r == Failure({InvalidOption}))
  {
    if now > l.votingEnd && optionId < |l.options| {
      assert CastVoteErrors(l, voter, now, optionId, ballot, verifier) == {VotingClosed};
    }
    if l.votingStart <= now <= l.votingEnd && optionId >= |l.options| {
      assert CastVoteErrors(l, voter, now, optionId, ballot, verifier) == {InvalidOption};
    }
  }

  /**
   * Status follows the clock: active inside the window and ended after it
   * until the admin finalises, finalised from then on at any time; the time
   * remaining is zero after the deadline.
   */
  lemma StatusLifecycle(l: Ledger, caller: Address, now: nat, later: nat)
    requires Valid(l) && !l.finalized
    ensures l.votingStart <= now <= l.votingEnd ==> VotingStatus(l, now) == Active
    ensures now > l.votingEnd ==> VotingStatus(l, now) == Ended && TimeRemaining(l, now) == 0
    ensures Finalize(l, caller, now).Success? ==>
      VotingStatus(Finalize(l, caller, now).value.ledger, later) == Finalized
  {
  }

  /**
   * After the admin extends the deadline, a first-time voter is accepted
   * after the old deadline and up to the new one, where the unextended
   * ledger refused the same vote with `VotingClosed`; the extension itself
   * is refused to anyone but the admin, for a deadline that is not later,
   * and after finalisation.
   */
  lemma ExtendThenVote(l: Ledger, admin: Address, newEnd: nat, voter: Address, now: nat,
                       optionId: nat, ballot: Ballot, verifier: InputVerifier)
    requires Valid(l) && !l.finalized && admin == l.admin
    requires l.votingEnd < now <= newEnd
    requires voter !in l.voted && optionId < |l.options| && verifier(ballot, voter)
    ensures ExtendVoting(l, admin, newEnd).Success?
    ensures CastVote(l, voter, now, optionId, ballot, verifier) == Failure({VotingClosed})
    ensures CastVote(ExtendVoting(l, admin, newEnd).value.ledger, voter, now, optionId, ballot, verifier).Success?
  {
    assert CastVoteErrors(l, voter, now, optionId, ballot, verifier) == {VotingClosed};
  }

  /** The three refusals of `extendVoting` that the tests exercise, each on its own. */
  lemma ExtendRefusals(l: Ledger, caller: Address, newEnd: nat)
    ensures caller != l.admin && !l.finalized && newEnd > l.votingEnd ==>
      ExtendVoting(l, caller, newEnd) == Failure({NotAdmin})
    ensures caller == l.admin && !l.finalized && newEnd <= l.votingEnd ==>
      ExtendVoting(l, caller, newEnd) == Failure({InvalidDuration})
    ensures caller == l.admin && l.finalized && newEnd > l.votingEnd ==>
      ExtendVoting(l, caller, newEnd) == Failure({AlreadyFinalized})
  {
    if caller != l.admin && !l.finalized && newEnd > l.votingEnd {
      assert ExtendVotingErrors(l, caller, newEnd) == {NotAdmin};
    }
    if caller == l.admin && !l.finalized && newEnd <= l.votingEnd {
      assert ExtendVotingErrors(l, caller, newEnd) == {InvalidDuration};
    }
    if caller == l.admin && l.finalized && newEnd > l.votingEnd {
      assert ExtendVotingErrors(l, caller, newEnd) == {AlreadyFinalized};
    }
  }

  /**
   * Once the admin has finalised, a second `finalize`, any extension to a
   * later deadline and any queueing of a fresh address are refused with
   * exactly `AlreadyFinalized`, and every address queued beforehand can
   * read results without a grant.
   */
  lemma FinalizeCloses(l: Ledger, admin: Address, now: nat, later: nat, newEnd: nat, viewer: Address)
    requires Valid(l) && admin == l.admin
    requires Finalize(l, admin, now).Success?
    requires later >= now
    ensures var f := Finalize(l, admin, now).value.ledger;
      && Finalize(f, admin, later) == Failure({AlreadyFinalized})
      && (newEnd > f.votingEnd ==> ExtendVoting(f, admin, newEnd) == Failure({AlreadyFinalized}))
      && (viewer != ZERO_ADDRESS && viewer !in f.granted ==>
            QueueViewer(f, admin, viewer) == Failure({AlreadyFinalized}))
      && (forall a :: IsQueued(l, a) ==> CanViewResults(f, a))
  {
    var f := Finalize(l, admin, now).value.ledger;
    assert FinalizeErrors(f, admin, later) == {AlreadyFinalized};
    if newEnd > f.votingEnd {
      assert ExtendVotingErrors(f, admin, newEnd) == {AlreadyFinalized};
    }
    if viewer != ZERO_ADDRESS && viewer !in f.granted {
      assert QueueCallerErrors(f, admin) + ViewerEntryErrors(f, viewer) == {AlreadyFinalized};
    }
  }

  /** `finalize` before the deadline, or by anyone but the admin, is refused with that one reason. */
  lemma FinalizeRefusals(l: Ledger, caller: Address, now: nat)
    requires !l.finalized
    ensures caller == l.admin && now <= l.votingEnd ==> Finalize(l, caller, now) == Failure({VotingNotEnded})
    ensures caller != l.admin && now > l.votingEnd ==> Finalize(l, caller, now) == Failure({NotAdmin})
  {
    if caller == l.admin && now <= l.votingEnd {
      assert FinalizeErrors(l, caller, now) == {VotingNotEnded};
    }
    if caller != l.admin && now > l.votingEnd {
      assert FinalizeErrors(l, caller, now) == {NotAdmin};
    }
  }

  /**
   * Queueing: the admin queues a fresh non-zero address, which then shows
   * as queued; removing it takes it off again and restores the queue;
   * the zero address is refused with exactly `InvalidViewer` (the admin,
   * a transaction sender, is never the zero address).
   */
  lemma QueueAndRemove(l: Ledger, viewer: Address)
    requires Valid(l) && !l.finalized && l.admin != ZERO_ADDRESS
    requires viewer != ZERO_ADDRESS && viewer !in l.granted && viewer !in l.queued
    ensures QueueViewer(l, l.admin, ZERO_ADDRESS) == Failure({InvalidViewer})
    ensures QueueViewer(l, l.admin, viewer).Success?
    ensures var q := QueueViewer(l, l.admin, viewer).value.ledger;
      && IsQueued(q, viewer)
      && RemoveQueuedViewer(q, l.admin, viewer).Success?
      && !IsQueued(RemoveQueuedViewer(q, l.admin, viewer).value.ledger, viewer)
      && RemoveQueuedViewer(q, l.admin, viewer).value.ledger == l
  {
    assert QueueCallerErrors(l, l.admin) + ViewerEntryErrors(l, ZERO_ADDRESS) == {InvalidViewer};
  }

  /**
   * A sender other than the admin is refused with exactly `NotAdmin` when
   * it queues an acceptable address before finalisation, singly or in a
   * batch of acceptable addresses.
   */
  lemma NonAdminQueueRefused(l: Ledger, caller: Address, viewer: Address, viewers: seq<Address>)
    requires caller != l.admin && !l.finalized
    requires viewer != ZERO_ADDRESS && viewer !in l.granted
    requires forall v :: v in viewers ==> v != ZERO_ADDRESS && v !in l.granted
    ensures QueueViewer(l, caller, viewer) == Failure({NotAdmin})
    ensures QueueViewers(l, caller, viewers) == Failure({NotAdmin})
  {
    assert QueueCallerErrors(l, caller) + ViewerEntryErrors(l, viewer) == {NotAdmin};
    assert QueueCallerErrors(l, caller) == {NotAdmin};
  }

  /** Queueing two addresses one after the other lists both. */
  lemma QueuedViewersListed(l: Ledger, v1: Address, v2: Address)
    requires Valid(l) && !l.finalized
    requires v1 != ZERO_ADDRESS && v2 != ZERO_ADDRESS && v1 !in l.granted && v2 !in l.granted
    ensures QueueViewer(l, l.admin, v1).Success?
    ensures var l1 := QueueViewer(l, l.admin, v1).value.ledger;
      && QueueViewer(l1, l.admin, v2).Success?
      && QueuedViewers(QueueViewer(l1, l.admin, v2).value.ledger) == l.queued + {v1, v2}
  {
  }

  /**
   * The two gates on the tallies: before finalisation even the admin is
   * refused with exactly `ResultsLocked`; afterwards an address without a
   * grant is refused with exactly `NotAuthorized`, while the admin, and a
   * viewer once granted, read every option's handle.
   */
  lemma TallyGates(l: Ledger, now: nat, stranger: Address)
    requires Valid(l) && !l.finalized && now > l.votingEnd
    requires stranger != ZERO_ADDRESS && stranger !in l.granted && stranger !in l.queued
    ensures GetTally(l, l.admin, 0) == Failure({ResultsLocked})
    ensures GetAllTallies(l, l.admin) == Failure({ResultsLocked})
    ensures var f := Finalize(l, l.admin, now).value.ledger;
      && GetTally(f, stranger, 0) == Failure({NotAuthorized})
      && GetAllTallies(f, stranger) == Failure({NotAuthorized})
      && GetAllTallies(f, l.admin) == Success(l.tallies)
      && GrantView(f, l.admin, stranger).Success?
      && GetAllTallies(GrantView(f, l.admin, stranger).value.ledger, stranger) == Success(l.tallies)
  {
    var f := Finalize(l, l.admin, now).value.ledger;
    assert ReadGateErrors(l, l.admin) == {ResultsLocked};
    assert ReadGateErrors(f, stranger) == {NotAuthorized};
    assert ReadGateErrors(l, l.admin) + Guard(0 >= |l.options|, InvalidOption) == {ResultsLocked};
    assert ReadGateErrors(f, stranger) + Guard(0 >= |f.options|, InvalidOption) == {NotAuthorized};
  }

  /**
   * `grantView` of an account before finalisation is refused with exactly
   * `NotFinalized`, and granting twice with exactly `AlreadyAuthorized`.
   */
  lemma GrantRefusals(l: Ledger, viewer: Address)
    requires Valid(l)
    ensures !l.finalized && viewer != l.admin && viewer != ZERO_ADDRESS ==>
      GrantView(l, l.admin, viewer) == Failure({NotFinalized})
    ensures l.finalized && viewer in l.granted && viewer != ZERO_ADDRESS ==>
      GrantView(l, l.admin, viewer) == Failure({AlreadyAuthorized})
    ensures RemoveQueuedViewer(l, l.admin, viewer).Failure? && !l.finalized ==>
      RemoveQueuedViewer(l, l.admin, viewer) == Failure({NotQueued})
  {
    if !l.finalized && viewer != l.admin && viewer != ZERO_ADDRESS {
      assert GrantCallerErrors(l, l.admin) + ViewerEntryErrors(l, viewer) == {NotFinalized};
    }
    if l.finalized && viewer in l.granted && viewer != ZERO_ADDRESS {
      assert GrantCallerErrors(l, l.admin) + ViewerEntryErrors(l, viewer) == {AlreadyAuthorized};
    }
    if RemoveQueuedViewer(l, l.admin, viewer).Failure? && !l.finalized {
      assert RemoveQueuedViewerErrors(l, l.admin, viewer) == {NotQueued};
    }
  }

  /**
   * The admin's grant of the zero address is refused with exactly
   * `InvalidViewer` after finalisation, and before it with that and
   * `NotFinalized`; a batch holding the zero address is refused with
   * `InvalidViewer` when the zero address is its first refused entry.
   */
  lemma GrantZeroRefused(l: Ledger, viewers: seq<Address>)
    requires Valid(l) && ZERO_ADDRESS !in l.granted
    ensures l.finalized ==> GrantView(l, l.admin, ZERO_ADDRESS) == Failure({InvalidViewer})
    ensures !l.finalized ==> GrantView(l, l.admin, ZERO_ADDRESS) == Failure({NotFinalized, InvalidViewer})
    ensures |viewers| > 0 && viewers[0] == ZERO_ADDRESS ==>
      var r := GrantViewMany(l, l.admin, viewers);
      r.Failure? && InvalidViewer in r.error && AlreadyAuthorized !in r.error
  {
    if l.finalized {
      assert GrantCallerErrors(l, l.admin) + ViewerEntryErrors(l, ZERO_ADDRESS) == {InvalidViewer};
    } else {
      assert GrantCallerErrors(l, l.admin) + ViewerEntryErrors(l, ZERO_ADDRESS) == {NotFinalized, InvalidViewer};
    }
    if |viewers| > 0 && viewers[0] == ZERO_ADDRESS {
      assert viewers[..0] == [];
      assert FirstBadGrant(l, viewers, 0);
    }
  }
}

=== FILE: ledger_trace.dfy ===
/**
 * Sequences of transactions against one ledger. A rejected transaction
 * leaves the ledger exactly as it was (every call is all-or-nothing), so a
 * run is the fold of the committed transitions. The lemmas here are the
 * guarantees that hold under ANY serialisation of calls: the invariant, at
 * most one vote per address, growth-only ballots and viewers, and
 * finalisation as a one-way barrier.
 */
module LedgerTrace {
  import opened Wrappers
  import opened SurveyCouncil
  import opened LedgerInvariant

  /** One state-changing call, with its sender and, where it reads the clock, its block time. */
  datatype Tx =
    | VoteTx(voter: Address, now: nat, optionId: nat, ballot: Ballot)
    | ExtendTx(caller: Address, newEndTime: nat)
    | FinalizeTx(caller: Address, now: nat)
    | QueueTx(caller: Address, viewer: Address)
    | QueueManyTx(caller: Address, viewers: seq<Address>)
    | RemoveTx(caller: Address, viewer: Address)
    | GrantTx(caller: Address, viewer: Address)
    | GrantManyTx(caller: Address, viewers: seq<Address>)

  function Apply(l: Ledger, tx: Tx, verifier: InputVerifier): Outcome
    requires Aligned(l)
  {
    match tx
    case VoteTx(voter, now, optionId, ballot) => CastVote(l, voter, now, optionId, ballot, verifier)
    case ExtendTx(caller, newEndTime) => ExtendVoting(l, caller, newEndTime)
    case FinalizeTx(caller, now) => Finalize(l, caller, now)
    case QueueTx(caller, viewer) => QueueViewer(l, caller, viewer)
    case QueueManyTx(caller, viewers) => QueueViewers(l, caller, viewers)
    case RemoveTx(caller, viewer) => RemoveQueuedViewer(l, caller, viewer)
    case GrantTx(caller, viewer) => GrantView(l, caller, viewer)
    case GrantManyTx(caller, viewers) => GrantViewMany(l, caller, viewers)
  }

  /** The ledger after `tx`: the committed state, or the old one when it reverted. */
  function Next(l: Ledger, tx: Tx, verifier: InputVerifier): (l': Ledger)
    requires Aligned(l)
    ensures Aligned(l') && SameSurvey(l, l')
    ensures Apply(l, tx, verifier).Failure? ==> l' == l
  {
    var r := Apply(l, tx, verifier);
    if r.Success? then r.value.ledger else l
  }

  function Run(l: Ledger, txs: seq<Tx>, verifier: InputVerifier): (l': Ledger)
    requires Aligned(l)
    ensures Aligned(l')
    decreases |txs|
  {
    if |txs| == 0 then l else Run(Next(l, txs[0], verifier), txs[1..], verifier)
  }

  /** Whether `tx` is a vote by `a` that the ledger `l` accepts. */
  predicate CommittedVoteBy(l: Ledger, tx: Tx, verifier: InputVerifier, a: Address)
    requires Aligned(l)
  {
    tx.VoteTx? && tx.voter == a && Apply(l, tx, verifier).Success?
  }

  /** How many votes by `a` the run commits. */
  function VotesBy(l: Ledger, txs: seq<Tx>, verifier: InputVerifier, a: Address): nat
    requires Aligned(l)
    decreases |txs|
  {
    if |txs| == 0 then 0
    else (if CommittedVoteBy(l, txs[0], verifier, a) then 1 else 0)
         + VotesBy(Next(l, txs[0], verifier), txs[1..], verifier, a)
  }

  /** How many votes, by anyone, the run commits. */
  function CommittedVotes(l: Ledger, txs: seq<Tx>, verifier: InputVerifier): nat
    requires Aligned(l)
    decreases |txs|
  {
    if |txs| == 0 then 0
    else (if txs[0].VoteTx? && Apply(l, txs[0], verifier).Success? then 1 else 0)
         + CommittedVotes(Next(l, txs[0], verifier), txs[1..], verifier)
  }

  /** Every transaction keeps the ledger invariant. */
  lemma StepValid(l: Ledger, tx: Tx, verifier: InputVerifier)
    requires Valid(l)
    ensures Valid(Next(l, tx, verifier))
  {
    if tx.VoteTx? {
      CastVoteValid(l, tx.voter, tx.now, tx.optionId, tx.ballot, verifier);
    }
  }

  lemma {:induction false} RunValid(l: Ledger, txs: seq<Tx>, verifier: InputVerifier)
    requires Valid(l)
    ensures Valid(Run(l, txs, verifier))
    decreases |txs|
  {
    if |txs| > 0 {
      StepValid(l, txs[0], verifier);
      RunValid(Next(l, txs[0], verifier), txs[1..], verifier);
    }
  }

  /** One transaction never takes anything away. */
  predicate Grows(l: Ledger, l': Ledger) {
    && SameSurvey(l, l')
    && l.voted <= l'.voted
    && l.totalVoters <= l'.totalVoters
    && l.granted <= l'.granted
    && l.votingEnd <= l'.votingEnd
    && (l.finalized ==> l'.finalized)
    && |l.tallies| == |l'.tallies|
    && (forall i :: 0 <= i < |l.tallies| ==> l.tallies[i].addends <= l'.tallies[i].addends)
  }

  lemma StepGrows(l: Ledger, tx: Tx, verifier: InputVerifier)
    requires Aligned(l)
    ensures Grows(l, Next(l, tx, verifier))
  {
  }

  /**
   * Over any run the voter set, the voter count, the viewer set and the
   * deadline only grow, finalisation is never undone, and every tally only
   * receives further additions: a ballot once counted is never altered.
   */
  lemma {:induction false} RunGrows(l: Ledger, txs: seq<Tx>, verifier: InputVerifier)
    requires Aligned(l)
    ensures Grows(l, Run(l, txs, verifier))
    decreases |txs|
  {
    if |txs| > 0 {
      var m := Next(l, txs[0], verifier);
      StepGrows(l, txs[0], verifier);
      RunGrows(m, txs[1..], verifier);
      var e := Run(l, txs, verifier);
      forall i | 0 <= i < |l.tallies|
        ensures l.tallies[i].addends <= e.tallies[i].addends
      {
        assert l.tallies[i].addends <= m.tallies[i].addends;
      }
    }
  }

  /**
   * Each address votes at most once over any run: never again if it had
   * already voted, and it ends up recorded exactly when it voted before or
   * had a vote committed during the run.
   */
  lemma {:induction false} AtMostOneVote(l: Ledger, txs: seq<Tx>, verifier: InputVerifier, a: Address)
    requires Aligned(l)
    ensures VotesBy(l, txs, verifier, a) <= 1
    ensures a in l.voted ==> VotesBy(l, txs, verifier, a) == 0
    ensures a in Run(l, txs, verifier).voted <==> a in l.voted || VotesBy(l, txs, verifier, a) == 1
    decreases |txs|
  {
    if |txs| > 0 {
      var m := Next(l, txs[0], verifier);
      AtMostOneVote(m, txs[1..], verifier, a);
      if CommittedVoteBy(l, txs[0], verifier, a) {
        assert a in m.voted;
      } else {
        assert a in m.voted <==> a in l.voted;
      }
    }
  }

  /** The voter count grows by exactly the number of committed votes. */
  lemma {:induction false} VoterCountMatchesVotes(l: Ledger, txs: seq<Tx>, verifier: InputVerifier)
    requires Aligned(l)
    ensures Run(l, txs, verifier).totalVoters == l.totalVoters + CommittedVotes(l, txs, verifier)
    decreases |txs|
  {
    if |txs| > 0 {
      VoterCountMatchesVotes(Next(l, txs[0], verifier), txs[1..], verifier);
    }
  }

  /** The block time a transaction reads, if it reads one. */
  function TxTime(tx: Tx): Option<nat> {
    match tx
    case VoteTx(_, now, _, _) => Some(now)
    case FinalizeTx(_, now) => Some(now)
    case _ => None
  }

  /** No transaction in `txs` is stamped before `t` (block times never go backwards). */
  predicate NotBefore(txs: seq<Tx>, t: nat) {
    forall i :: 0 <= i < |txs| && TxTime(txs[i]).Some? ==> TxTime(txs[i]).value >= t
  }

  /**
   * Once finalised, a ledger whose later calls come at or after a time past
   * the deadline never changes its deadline, its ballots or its queue again,
   * and stays finalised: extension, queueing, removal and voting are closed
   * for good.
   */
  lemma {:induction false} FinalizedIsBarrier(l: Ledger, txs: seq<Tx>, verifier: InputVerifier, t: nat)
    requires Valid(l) && l.finalized
    requires t > l.votingEnd && NotBefore(txs, t)
    ensures var e := Run(l, txs, verifier);
      e.finalized && e.votingEnd == l.votingEnd && SameBallots(l, e) && e.queued == {}
    decreases |txs|
  {
    if |txs| > 0 {
      var m := Next(l, txs[0], verifier);
      StepValid(l, txs[0], verifier);
      assert TxTime(txs[0]).Some? ==> TxTime(txs[0]).value >= t;
      assert NotBefore(txs[1..], t) by {
        forall i | 0 <= i < |txs[1..]| && TxTime(txs[1..][i]).Some?
          ensures TxTime(txs[1..][i]).value >= t
        {
          assert txs[1..][i] == txs[i + 1];
        }
      }
      FinalizedIsBarrier(m, txs[1..], verifier, t);
    }
  }

  /**
   * A successful `finalize` at time `t` followed by any calls at or after `t`:
   * no vote is ever committed again and every address queued at the moment
   * of finalisation can read results for good.
   */
  lemma FinalizeThenFrozen(l: Ledger, caller: Address, t: nat, txs: seq<Tx>, verifier: InputVerifier)
    requires Valid(l)
    requires Finalize(l, caller, t).Success?
    requires NotBefore(txs, t)
    ensures var f := Finalize(l, caller, t).value.ledger;
      && SameBallots(f, Run(f, txs, verifier))
      && (forall a :: IsQueued(l, a) ==> CanViewResults(Run(f, txs, verifier), a))
  {
    var f := Finalize(l, caller, t).value.ledger;
    StepValid(l, FinalizeTx(caller, t), verifier);
    assert f == Next(l, FinalizeTx(caller, t), verifier);
    FinalizedIsBarrier(f, txs, verifier, t);
    RunGrows(f, txs, verifier);
  }
}

=== FILE: survey_council.dfy ===
/**
 * The SurveyCouncil ledger: one survey that accepts one encrypted ballot per
 * address, accumulates per-option encrypted tallies, and releases the tally
 * handles only to authorised viewers once the admin has finalised it.
 *
 * The ledger is an immutable record; every transaction is a pure function of
 * the ledger, the calling address and the block timestamp `now`, returning
 * either the new ledger with the events it emits, or a rejection. A rejection
 * carries the SET of custom errors whose guard fails: the contract raises one
 * of them, and which one wins when several guards fail is left open.
 */
module SurveyCouncil {
  import opened Wrappers

  /**
   * An account address; `ZERO_ADDRESS` is the null address. The 160-bit
   * width of addresses and the 256-bit width of the contract's integers are
   * not modelled: Solidity 0.8 reverts on overflow rather than wrapping.
   */
  type Address = nat
  const ZERO_ADDRESS: Address := 0

  const MIN_DURATION: nat := 3600          // one hour
  const MAX_DURATION: nat := 2592000       // thirty days
  const MIN_OPTIONS: nat := 2
  const MAX_OPTIONS: nat := 32

  /** An opaque bytes32 ciphertext handle; the ledger never reads its bytes. */
  datatype Handle = Handle(bytes: seq<bv8>)

  /**
   * What a voter submits: a ciphertext, which the client makes by encrypting
   * 1, and the proof that binds it to the voter.
   */
  datatype Ballot = Ballot(encryptedOne: Handle, proof: seq<bv8>)

  /**
   * The external input-proof check: true when the ballot's proof binds its
   * ciphertext to the submitting address and to this ledger instance. What
   * the ciphertext encrypts is not part of the check.
   */
  type InputVerifier = (Ballot, Address) -> bool

  /**
   * An encrypted tally, identified by how it was derived: the encrypted zero
   * it started from followed by the homomorphic additions applied to it, in
   * order. The derivation is all the ledger knows; nothing in it yields a
   * cleartext count.
   */
  datatype Tally = Tally(addends: seq<Handle>)

  const ENCRYPTED_ZERO: Tally := Tally([])

  /** The homomorphic addition of a ballot's ciphertext to a tally. */
  function HomAdd(t: Tally, c: Handle): (r: Tally)
    ensures t.addends <= r.addends
    ensures |r.addends| == |t.addends| + 1
  {
    Tally(t.addends + [c])
  }

  /**
   * How many ballots a tally has received. It is also what the tally
   * decrypts to when every ballot encrypts 1, as the client's ballots do.
   */
  ghost function BallotCount(t: Tally): nat {
    |t.addends|
  }

  /**
   * The custom errors of the contract, plus `InputProofRejected` for a ballot
   * whose proof the external verifier refuses (that revert comes from the
   * encryption library, not from the contract's own catalogue).
   */
  datatype Error =
    | AlreadyAuthorized | AlreadyFinalized | AlreadyVoted | InvalidDuration
    | InvalidOption | InvalidOptionsLength | InvalidViewer | NotAdmin
    | NotAuthorized | NotFinalized | NotQueued | ResultsLocked
    | VotingClosed | VotingNotEnded | VotingNotStarted | ZamaProtocolUnsupported
    | InputProofRejected

  predicate IsCustomError(e: Error) {
    e != InputProofRejected
  }

  datatype Status = NotStarted | Active | Ended | Finalized

  /** The uint8 returned by `getVotingStatus`. */
  function StatusCode(s: Status): (code: nat)
    ensures code < 4
  {
    match s
    case NotStarted => 0
    case Active => 1
    case Ended => 2
    case Finalized => 3
  }

  /** Reads a status code back; codes 4 and above name no status. */
  function StatusOfCode(code: nat): (s: Option<Status>)
    ensures s.Some? <==> code < 4
    ensures s.Some? ==> StatusCode(s.value) == code
  {
    if code == 0 then Some(NotStarted)
    else if code == 1 then Some(Active)
    else if code == 2 then Some(Ended)
    else if code == 3 then Some(Finalized)
    else None
  }

  datatype Event =
    | SurveyCreated(title: string, optionsCount: nat, endTime: nat)
    | VoteCast(voter: Address, optionId: nat, timestamp: nat)
    | VotingExtended(oldEndTime: nat, newEndTime: nat)
    | ViewerQueued(viewer: Address)
    | ViewerRemoved(viewer: Address)
    | ViewerGranted(viewer: Address)
    | SurveyFinalized(timestamp: nat, totalVoters: nat)   // the ABI's `Finalized` event

  datatype Ledger = Ledger(
    admin: Address,
    title: string,
    options: seq<string>,
    votingStart: nat,
    votingEnd: nat,
    finalized: bool,
    voted: set<Address>,
    totalVoters: nat,
    queued: set<Address>,
    granted: set<Address>,
    tallies: seq<Tally>)

  /** The tallies line up with the options: every indexing below relies on it. */
  predicate Aligned(l: Ledger) {
    |l.tallies| == |l.options|
  }

  /** A committed transaction: the new ledger and the events it emitted. */
  datatype Receipt = Receipt(ledger: Ledger, events: seq<Event>)

  type Outcome = Result<Receipt, set<Error>>

  /** `{e}` when the guard `failed` holds, nothing otherwise. */
  function Guard(failed: bool, e: Error): set<Error> {
    if failed then {e} else {}
  }

  /** The title, options, admin and start time never change after deployment. */
  predicate SameSurvey(l: Ledger, l': Ledger) {
    && l'.admin == l.admin
    && l'.title == l.title
    && l'.options == l.options
    && l'.votingStart == l.votingStart
  }

  /** No ballot-related part of the ledger changed. */
  predicate SameBallots(l: Ledger, l': Ledger) {
    && l'.voted == l.voted
    && l'.totalVoters == l.totalVoters
    && l'.tallies == l.tallies
  }

  /** No access-control part of the ledger changed. */
  predicate SameViewers(l: Ledger, l': Ledger) {
    l'.queued == l.queued && l'.granted == l.granted
  }

  // ---------------------------------------------------------------- deployment

  function DeployErrors(optionsCount: nat, duration: nat): set<Error> {
    Guard(optionsCount < MIN_OPTIONS || optionsCount > MAX_OPTIONS, InvalidOptionsLength)
    + Guard(duration < MIN_DURATION || duration > MAX_DURATION, InvalidDuration)
  }

  /**
   * The constructor: `deployer` becomes admin and the only viewer, voting
   * opens at `now` and closes `duration` seconds later, and every option
   * starts with an encrypted zero.
   */
  function Deploy(deployer: Address, now: nat, title: string, options: seq<string>, duration: nat)
    : (r: Outcome)
    ensures r.Success? <==> 2 <= |options| <= 32 && 3600 <= duration <= 2592000
    ensures |options| < 2 || |options| > 32 ==> r.Failure? && InvalidOptionsLength in r.error
    ensures duration < 3600 || duration > 2592000 ==> r.Failure? && InvalidDuration in r.error
    ensures r.Failure? ==> r.error <= {InvalidOptionsLength, InvalidDuration}
    ensures r.Failure? ==> (InvalidOptionsLength in r.error <==> |options| < 2 || |options| > 32)
    ensures r.Failure? ==> (InvalidDuration in r.error <==> duration < 3600 || duration > 2592000)
    ensures r.Success? ==>
      var l := r.value.ledger;
      && l.admin == deployer && l.title == title && l.options == options
      && l.votingStart == now && l.votingEnd - l.votingStart == duration
      && !l.finalized && l.voted == {} && l.totalVoters == 0
      && l.queued == {} && l.granted == {deployer}
      && |l.tallies| == |options|
      && (forall i :: 0 <= i < |l.tallies| ==> l.tallies[i] == ENCRYPTED_ZERO)
      && r.value.events == [SurveyCreated(title, |options|, l.votingEnd)]
  {
    var errors := DeployErrors(|options|, duration);
    if errors != {} then Failure(errors)
    else
      var l := Ledger(deployer, title, options, now, now + duration, false,
                      {}, 0, {}, {deployer}, seq(|options|, _ => ENCRYPTED_ZERO));
      Success(Receipt(l, [SurveyCreated(title, |options|, now + duration)]))
  }

  // ---------------------------------------------------------------- status

  /** `getVotingStatus`: finalisation dominates; otherwise the time window decides. */
  function VotingStatus(l: Ledger, now: nat): (s: Status)
    ensures s == Finalized <==> l.finalized
    ensures s == NotStarted <==> !l.finalized && now < l.votingStart
    ensures s == Ended <==> !l.finalized && l.votingStart <= now && now > l.votingEnd
    ensures s == Active <==> !l.finalized && l.votingStart <= now <= l.votingEnd
  {
    if l.finalized then Finalized
    else if now < l.votingStart then NotStarted
    else if now > l.votingEnd then Ended
    else Active
  }

  /** `getTimeRemaining`: seconds until the deadline, never negative. */
  function TimeRemaining(l: Ledger, now: nat): (r: nat)
    ensures r == 0 <==> now >= l.votingEnd
    ensures r > 0 ==> now + r == l.votingEnd
  {
    if now >= l.votingEnd then 0 else l.votingEnd - now
  }

  // ---------------------------------------------------------------- voting

  function CastVoteErrors(l: Ledger, voter: Address, now: nat, optionId: nat,
                          ballot: Ballot, verifier: InputVerifier): set<Error>
  {
    Guard(now < l.votingStart, VotingNotStarted)
    + Guard(now > l.votingEnd, VotingClosed)
    + Guard(voter in l.voted, AlreadyVoted)
    + Guard(optionId >= |l.options|, InvalidOption)
    + Guard(!verifier(ballot, voter), InputProofRejected)
  }

  /**
   * `castVote(optionId, encryptedOne, proof)` sent by `voter`: inside the
   * window, a first-time voter's verified ciphertext is homomorphically
   * added to the chosen option's tally and the voter is recorded.
   */
  function CastVote(l: Ledger, voter: Address, now: nat, optionId: nat,
                    ballot: Ballot, verifier: InputVerifier): (r: Outcome)
    requires Aligned(l)
    ensures r.Success? <==>
      && l.votingStart <= now <= l.votingEnd
      && voter !in l.voted
      && optionId < |l.options|
      && verifier(ballot, voter)
    ensures now < l.votingStart ==> r.Failure? && VotingNotStarted in r.error
    ensures now > l.votingEnd ==> r.Failure? && VotingClosed in r.error
    ensures voter in l.voted ==> r.Failure? && AlreadyVoted in r.error
    ensures optionId >= |l.options| ==> r.Failure? && InvalidOption in r.error
    ensures !verifier(ballot, voter) ==> r.Failure? && InputProofRejected in r.error
    ensures r.Failure? ==>
      r.error <= {VotingNotStarted, VotingClosed, AlreadyVoted, InvalidOption, InputProofRejected}
    ensures r.Failure? ==>
      && (VotingNotStarted in r.error <==> now < l.votingStart)
      && (VotingClosed in r.error <==> now > l.votingEnd)
      && (AlreadyVoted in r.error <==> voter in l.voted)
      && (InvalidOption in r.error <==> optionId >= |l.options|)
      && (InputProofRejected in r.error <==> !verifier(ballot, voter))
    ensures r.Success? ==>
      var l' := r.value.ledger;
      && SameSurvey(l, l') && SameViewers(l, l')
      && l'.votingEnd == l.votingEnd && l'.finalized == l.finalized
      && l'.voted == l.voted + {voter}
      && l'.totalVoters == l.totalVoters + 1
      && |l'.tallies| == |l.tallies|
      && l'.tallies[optionId] == HomAdd(l.tallies[optionId], ballot.encryptedOne)
      && (forall i :: 0 <= i < |l.tallies| && i != optionId ==> l'.tallies[i] == l.tallies[i])
      && r.value.events == [VoteCast(voter, optionId, now)]
  {
    var errors := CastVoteErrors(l, voter, now, optionId, ballot, verifier);
    if errors != {} then Failure(errors)
    else
      var tally := HomAdd(l.tallies[optionId], ballot.encryptedOne);
      var l' := l.(voted := l.voted + {voter},
                   totalVoters := l.totalVoters + 1,
                   tallies := l.tallies[optionId := tally]);
      Success(Receipt(l', [VoteCast(voter, optionId, now)]))
  }

  // ---------------------------------------------------------------- lifecycle

  function ExtendVotingErrors(l: Ledger, caller: Address, newEndTime: nat): set<Error> {
    Guard(caller != l.admin, NotAdmin)
    + Guard(l.finalized, AlreadyFinalized)
    + Guard(newEndTime <= l.votingEnd, InvalidDuration)
  }

  /**
   * `extendVoting(newEndTime)`: the admin moves the deadline strictly later,
   * also once the window has closed, as long as the survey is not finalised.
   * The 30-day cap is not applied to the extended window.
   */
  function ExtendVoting(l: Ledger, caller: Address, newEndTime: nat): (r: Outcome)
    ensures r.Success? <==> caller == l.admin && !l.finalized && newEndTime > l.votingEnd
    ensures caller != l.admin ==> r.Failure? && NotAdmin in r.error
    ensures l.finalized ==> r.Failure? && AlreadyFinalized in r.error
    ensures newEndTime <= l.votingEnd ==> r.Failure? && InvalidDuration in r.error
    ensures r.Failure? ==> r.error <= {NotAdmin, AlreadyFinalized, InvalidDuration}
    ensures r.Failure? ==>
      && (NotAdmin in r.error <==> caller != l.admin)
      && (AlreadyFinalized in r.error <==> l.finalized)
      && (InvalidDuration in r.error <==> newEndTime <= l.votingEnd)
    ensures r.Success? ==>
      var l' := r.value.ledger;
      && SameSurvey(l, l') && SameBallots(l, l') && SameViewers(l, l')
      && l'.finalized == l.finalized
      && l'.votingEnd == newEndTime
      && r.value.events == [VotingExtended(l.votingEnd, newEndTime)]
  {
    var errors := ExtendVotingErrors(l, caller, newEndTime);
    if errors != {} then Failure(errors)
    else Success(Receipt(l.(votingEnd := newEndTime), [VotingExtended(l.votingEnd, newEndTime)]))
  }

  function FinalizeErrors(l: Ledger, caller: Address, now: nat): set<Error> {
    Guard(caller != l.admin, NotAdmin)
    + Guard(l.finalized, AlreadyFinalized)
    + Guard(now <= l.votingEnd, VotingNotEnded)
  }

  /**
   * `finalize()`: strictly after the deadline the admin closes the survey for
   * good; every address queued at this instant is promoted to a viewer and the
   * queue is emptied.
   */
  function Finalize(l: Ledger, caller: Address, now: nat): (r: Outcome)
    ensures r.Success? <==> caller == l.admin && !l.finalized && now > l.votingEnd
    ensures caller != l.admin ==> r.Failure? && NotAdmin in r.error
    ensures l.finalized ==> r.Failure? && AlreadyFinalized in r.error
    ensures now <= l.votingEnd ==> r.Failure? && VotingNotEnded in r.error
    ensures r.Failure? ==> r.error <= {NotAdmin, AlreadyFinalized, VotingNotEnded}
    ensures r.Failure? ==>
      && (NotAdmin in r.error <==> caller != l.admin)
      && (AlreadyFinalized in r.error <==> l.finalized)
      && (VotingNotEnded in r.error <==> now <= l.votingEnd)
    ensures r.Success? ==>
      var l' := r.value.ledger;
      && SameSurvey(l, l') && SameBallots(l, l')
      && l'.votingEnd == l.votingEnd
      && l'.finalized
      && l'.granted == l.granted + l.queued
      && l'.queued == {}
      && r.value.events == [SurveyFinalized(now, l.totalVoters)]
  {
    var errors := FinalizeErrors(l, caller, now);
    if errors != {} then Failure(errors)
    else
      var l' := l.(finalized := true, granted := l.granted + l.queued, queued := {});
      Success(Receipt(l', [SurveyFinalized(now, l.totalVoters)]))
  }

  // ---------------------------------------------------------------- viewer queue

  /** Guards on the sender and the lifecycle shared by the queue operations. */
  function QueueCallerErrors(l: Ledger, caller: Address): set<Error> {
    Guard(caller != l.admin, NotAdmin) + Guard(l.finalized, AlreadyFinalized)
  }

  /** Guards on one address to be queued or granted: `InvalidViewer` and `AlreadyAuthorized`. */
  function ViewerEntryErrors(l: Ledger, viewer: Address): set<Error> {
    Guard(viewer == ZERO_ADDRESS, InvalidViewer) + Guard(viewer in l.granted, AlreadyAuthorized)
  }

  /**
   * `queueViewer(viewer)`: before finalisation the admin marks an address for
   * automatic promotion; queuing an already-queued address is harmless.
   */
  function QueueViewer(l: Ledger, caller: Address, viewer: Address): (r: Outcome)
    ensures r.Success? <==>
      caller == l.admin && !l.finalized && viewer != ZERO_ADDRESS && viewer !in l.granted
    ensures caller != l.admin ==> r.Failure? && NotAdmin in r.error
    ensures l.finalized ==> r.Failure? && AlreadyFinalized in r.error
    ensures viewer == ZERO_ADDRESS ==> r.Failure? && InvalidViewer in r.error
    ensures viewer in l.granted ==> r.Failure? && AlreadyAuthorized in r.error
    ensures r.Failure? ==> r.error <= {NotAdmin, AlreadyFinalized, InvalidViewer, AlreadyAuthorized}
    ensures r.Success? ==>
      var l' := r.value.ledger;
      && SameSurvey(l, l') && SameBallots(l, l')
      && l'.votingEnd == l.votingEnd && l'.finalized == l.finalized
      && l'.queued == l.queued + {viewer} && l'.granted == l.granted
      && r.value.events == [ViewerQueued(viewer)]
    ensures r.Failure? ==>
      && (NotAdmin in r.error <==> caller != l.admin)
      && (AlreadyFinalized in r.error <==> l.finalized)
      && (InvalidViewer in r.error <==> viewer == ZERO_ADDRESS)
      && (AlreadyAuthorized in r.error <==> viewer in l.granted)
  {
    var errors := QueueCallerErrors(l, caller) + ViewerEntryErrors(l, viewer);
    if errors != {} then Failure(errors)
    else Success(Receipt(l.(queued := l.queued + {viewer}), [ViewerQueued(viewer)]))
  }

  /** An address a queue or grant refuses whoever asks: the zero address or an existing viewer. */
  predicate BadEntry(l: Ledger, v: Address) {
    v == ZERO_ADDRESS || v in l.granted
  }

  /** Entry `k` is the first entry of the batch that the queue refuses. */
  predicate FirstBadEntry(l: Ledger, viewers: seq<Address>, k: int) {
    && 0 <= k < |viewers|
    && BadEntry(l, viewers[k])
    && forall j :: 0 <= j < k ==> !BadEntry(l, viewers[j])
  }

  /** Queues `viewers` one after another; the first bad entry rejects the whole batch. */
  function QueueEach(l: Ledger, viewers: seq<Address>): (r: Outcome)
    ensures r.Success? <==> forall v :: v in viewers ==> v != ZERO_ADDRESS && v !in l.granted
    ensures r.Failure? ==> r.error != {} && r.error <= {InvalidViewer, AlreadyAuthorized}
    ensures r.Success? ==>
      r.value.ledger == l.(queued := l.queued + set v | v in viewers)
      && |r.value.events| == |viewers|
      && (forall i :: 0 <= i < |viewers| ==> r.value.events[i] == ViewerQueued(viewers[i]))
    decreases |viewers|
  {
    if |viewers| == 0 then Success(Receipt(l, []))
    else
      var errors := ViewerEntryErrors(l, viewers[0]);
      if errors != {} then Failure(errors)
      else
        var rest := QueueEach(l.(queued := l.queued + {viewers[0]}), viewers[1..]);
        assert forall v :: v in viewers <==> v == viewers[0] || v in viewers[1..];
        if rest.Failure? then rest
        else
          Success(Receipt(rest.value.ledger, [ViewerQueued(viewers[0])] + rest.value.events))
  }

  /** A refused batch fails with the entry errors of its first bad entry, and only those. */
  lemma {:induction false} QueueEachStopsAtFirstBad(l: Ledger, viewers: seq<Address>)
    ensures forall k :: FirstBadEntry(l, viewers, k) ==>
      var r := QueueEach(l, viewers);
      && r.Failure?
      && (InvalidViewer in r.error <==> viewers[k] == ZERO_ADDRESS)
      && (AlreadyAuthorized in r.error <==> viewers[k] in l.granted)
    decreases |viewers|
  {
    if |viewers| > 0 && !BadEntry(l, viewers[0]) {
      var l' := l.(queued := l.queued + {viewers[0]});
      QueueEachStopsAtFirstBad(l', viewers[1..]);
      forall k | FirstBadEntry(l, viewers, k)
        ensures FirstBadEntry(l', viewers[1..], k - 1)
      {
        assert k != 0;
        forall j | 0 <= j < k - 1
          ensures !BadEntry(l', viewers[1..][j])
        {
          assert viewers[1..][j] == viewers[j + 1];
        }
      }
    }
  }

  /** `queueViewers(viewers)`: the batch form of `queueViewer`, all or nothing. */
  function QueueViewers(l: Ledger, caller: Address, viewers: seq<Address>): (r: Outcome)
    ensures r.Success? <==>
      && caller == l.admin && !l.finalized
      && forall v :: v in viewers ==> v != ZERO_ADDRESS && v !in l.granted
    ensures caller != l.admin ==> r.Failure? && NotAdmin in r.error
    ensures l.finalized ==> r.Failure? && AlreadyFinalized in r.error
    ensures r.Failure? ==> r.error <= {NotAdmin, AlreadyFinalized, InvalidViewer, AlreadyAuthorized}
    ensures r.Failure? ==>
      && (NotAdmin in r.error <==> caller != l.admin)
      && (AlreadyFinalized in r.error <==> l.finalized)
    ensures forall k :: FirstBadEntry(l, viewers, k) ==>
      && r.Failure?
      && (InvalidViewer in r.error <==> viewers[k] == ZERO_ADDRESS)
      && (AlreadyAuthorized in r.error <==> viewers[k] in l.granted)
    ensures r.Failure? && (forall v :: v in viewers ==> !BadEntry(l, v)) ==>
      InvalidViewer !in r.error && AlreadyAuthorized !in r.error
    ensures r.Success? ==>
      var l' := r.value.ledger;
      && SameSurvey(l, l') && SameBallots(l, l')
      && l'.votingEnd == l.votingEnd && l'.finalized == l.finalized
      && l'.queued == l.queued + (set v | v in viewers) && l'.granted == l.granted
      && |r.value.events| == |viewers|
      && (forall i :: 0 <= i < |viewers| ==> r.value.events[i] == ViewerQueued(viewers[i]))
  {
    var callerErrors := QueueCallerErrors(l, caller);
    var each := QueueEach(l, viewers);
    QueueEachStopsAtFirstBad(l, viewers);
    if callerErrors == {} && each.Success? then each
    else Failure(callerErrors + (if each.Failure? then each.error else {}))
  }

  function RemoveQueuedViewerErrors(l: Ledger, caller: Address, viewer: Address): set<Error> {
    QueueCallerErrors(l, caller) + Guard(viewer !in l.queued, NotQueued)
  }

  /** `removeQueuedViewer(viewer)`: the admin takes a queued address off the queue. */
  function RemoveQueuedViewer(l: Ledger, caller: Address, viewer: Address): (r: Outcome)
    ensures r.Success? <==> caller == l.admin && !l.finalized && viewer in l.queued
    ensures caller != l.admin ==> r.Failure? && NotAdmin in r.error
    ensures l.finalized ==> r.Failure? && AlreadyFinalized in r.error
    ensures viewer !in l.queued ==> r.Failure? && NotQueued in r.error
    ensures r.Failure? ==> r.error <= {NotAdmin, AlreadyFinalized, NotQueued}
    ensures r.Failure? ==>
      && (NotAdmin in r.error <==> caller != l.admin)
      && (AlreadyFinalized in r.error <==> l.finalized)
      && (NotQueued in r.error <==> viewer !in l.queued)
    ensures r.Success? ==>
      var l' := r.value.ledger;
      && SameSurvey(l, l') && SameBallots(l, l')
      && l'.votingEnd == l.votingEnd && l'.finalized == l.finalized
      && l'.queued == l.queued - {viewer} && l'.granted == l.granted
      && r.value.events == [ViewerRemoved(viewer)]
  {
    var errors := RemoveQueuedViewerErrors(l, caller, viewer);
    if errors != {} then Failure(errors)
    else Success(Receipt(l.(queued := l.queued - {viewer}), [ViewerRemoved(viewer)]))
  }

  // ---------------------------------------------------------------- grants

  function GrantCallerErrors(l: Ledger, caller: Address): set<Error> {
    Guard(caller != l.admin, NotAdmin) + Guard(!l.finalized, NotFinalized)
  }

  /** `grantView(viewer)`: after finalisation the admin lets one more non-zero address read the tallies. */
  function GrantView(l: Ledger, caller: Address, viewer: Address): (r: Outcome)
    ensures r.Success? <==>
      caller == l.admin && l.finalized && viewer != ZERO_ADDRESS && viewer !in l.granted
    ensures caller != l.admin ==> r.Failure? && NotAdmin in r.error
    ensures !l.finalized ==> r.Failure? && NotFinalized in r.error
    ensures viewer == ZERO_ADDRESS ==> r.Failure? && InvalidViewer in r.error
    ensures viewer in l.granted ==> r.Failure? && AlreadyAuthorized in r.error
    ensures r.Failure? ==> r.error <= {NotAdmin, NotFinalized, InvalidViewer, AlreadyAuthorized}
    ensures r.Success? ==>
      var l' := r.value.ledger;
      && SameSurvey(l, l') && SameBallots(l, l')
      && l'.votingEnd == l.votingEnd && l'.finalized == l.finalized
      && l'.granted == l.granted + {viewer} && l'.queued == l.queued
      && r.value.events == [ViewerGranted(viewer)]
    ensures r.Failure? ==>
      && (NotAdmin in r.error <==> caller != l.admin)
      && (NotFinalized in r.error <==> !l.finalized)
      && (InvalidViewer in r.error <==> viewer == ZERO_ADDRESS)
      && (AlreadyAuthorized in r.error <==> viewer in l.granted)
  {
    var errors := GrantCallerErrors(l, caller) + ViewerEntryErrors(l, viewer);
    if errors != {} then Failure(errors)
    else Success(Receipt(l.(granted := l.granted + {viewer}), [ViewerGranted(viewer)]))
  }

  /**
   * Grants `viewers` one after another; the zero address, an address that
   * is already a viewer, or one granted earlier in the batch rejects it.
   */
  function GrantEach(l: Ledger, viewers: seq<Address>): (r: Outcome)
    ensures r.Success? <==>
      && (forall v :: v in viewers ==> v != ZERO_ADDRESS && v !in l.granted)
      && (forall i, j :: 0 <= i < j < |viewers| ==> viewers[i] != viewers[j])
    ensures r.Failure? ==> r.error != {} && r.error <= {InvalidViewer, AlreadyAuthorized}
    ensures r.Success? ==>
      r.value.ledger == l.(granted := l.granted + set v | v in viewers)
      && |r.value.events| == |viewers|
      && (forall i :: 0 <= i < |viewers| ==> r.value.events[i] == ViewerGranted(viewers[i]))
    decreases |viewers|
  {
    if |viewers| == 0 then Success(Receipt(l, []))
    else
      var errors := ViewerEntryErrors(l, viewers[0]);
      if errors != {} then Failure(errors)
      else
        var rest := GrantEach(l.(granted := l.granted + {viewers[0]}), viewers[1..]);
        assert forall v :: v in viewers <==> v == viewers[0] || v in viewers[1..];
        if rest.Failure? then
          assert !((forall v :: v in viewers[1..] ==> v != ZERO_ADDRESS && v !in l.granted + {viewers[0]})
                   && (forall i, j :: 0 <= i < j < |viewers| - 1 ==> viewers[1..][i] != viewers[1..][j]));
          rest
        else
          assert forall j :: 0 < j < |viewers| ==> viewers[j] == viewers[1..][j - 1];
          Success(Receipt(rest.value.ledger, [ViewerGranted(viewers[0])] + rest.value.events))
  }

  /** Entry `k` of a batch grant is refused: it is bad on its own, or granted earlier in the batch. */
  predicate BadGrant(l: Ledger, viewers: seq<Address>, k: int)
    requires 0 <= k < |viewers|
  {
    BadEntry(l, viewers[k]) || viewers[k] in viewers[..k]
  }

  /** Entry `k` is the first entry of the batch grant that is refused. */
  predicate FirstBadGrant(l: Ledger, viewers: seq<Address>, k: int) {
    && 0 <= k < |viewers|
    && BadGrant(l, viewers, k)
    && forall j :: 0 <= j < k ==> !BadGrant(l, viewers, j)
  }

  /**
   * A refused batch grant fails with the errors of its first refused entry:
   * `InvalidViewer` exactly when it is the zero address, `AlreadyAuthorized`
   * exactly when it is a viewer already or repeats an earlier entry.
   */
  lemma {:induction false} GrantEachStopsAtFirstBad(l: Ledger, viewers: seq<Address>)
    ensures forall k :: FirstBadGrant(l, viewers, k) ==>
      var r := GrantEach(l, viewers);
      && r.Failure?
      && (InvalidViewer in r.error <==> viewers[k] == ZERO_ADDRESS)
      && (AlreadyAuthorized in r.error <==> viewers[k] in l.granted || viewers[k] in viewers[..k])
    decreases |viewers|
  {
    if |viewers| > 0 {
      assert viewers[..0] == [];
      if BadEntry(l, viewers[0]) {
        assert BadGrant(l, viewers, 0);
      } else {
        var l' := l.(granted := l.granted + {viewers[0]});
        GrantEachStopsAtFirstBad(l', viewers[1..]);
        forall k | FirstBadGrant(l, viewers, k)
          ensures FirstBadGrant(l', viewers[1..], k - 1)
          ensures (viewers[k] in l'.granted || viewers[k] in viewers[1..][..k - 1])
                  <==> (viewers[k] in l.granted || viewers[k] in viewers[..k])
        {
          assert k != 0;
          assert viewers[..k] == [viewers[0]] + viewers[1..][..k - 1];
          assert viewers[1..][k - 1] == viewers[k];
          forall j | 0 <= j < k - 1
            ensures !BadGrant(l', viewers[1..], j)
          {
            assert viewers[1..][j] == viewers[j + 1];
            assert viewers[..j + 1] == [viewers[0]] + viewers[1..][..j];
            assert !BadGrant(l, viewers, j + 1);
          }
        }
      }
    }
  }

  /** `grantViewMany(viewers)`: the batch form of `grantView`, all or nothing. */
  function GrantViewMany(l: Ledger, caller: Address, viewers: seq<Address>): (r: Outcome)
    ensures r.Success? <==>
      && caller == l.admin && l.finalized
      && (forall v :: v in viewers ==> v != ZERO_ADDRESS && v !in l.granted)
      && (forall i, j :: 0 <= i < j < |viewers| ==> viewers[i] != viewers[j])
    ensures caller != l.admin ==> r.Failure? && NotAdmin in r.error
    ensures !l.finalized ==> r.Failure? && NotFinalized in r.error
    ensures r.Failure? ==> r.error <= {NotAdmin, NotFinalized, InvalidViewer, AlreadyAuthorized}
    ensures r.Failure? ==>
      && (NotAdmin in r.error <==> caller != l.admin)
      && (NotFinalized in r.error <==> !l.finalized)
    ensures forall k :: FirstBadGrant(l, viewers, k) ==>
      && r.Failure?
      && (InvalidViewer in r.error <==> viewers[k] == ZERO_ADDRESS)
      && (AlreadyAuthorized in r.error <==> viewers[k] in l.granted || viewers[k] in viewers[..k])
    ensures r.Failure?
            && (forall v :: v in viewers ==> !BadEntry(l, v))
            && (forall i, j :: 0 <= i < j < |viewers| ==> viewers[i] != viewers[j]) ==>
      InvalidViewer !in r.error && AlreadyAuthorized !in r.error
    ensures r.Success? ==>
      var l' := r.value.ledger;
      && SameSurvey(l, l') && SameBallots(l, l')
      && l'.votingEnd == l.votingEnd && l'.finalized == l.finalized
      && l'.granted == l.granted + (set v | v in viewers) && l'.queued == l.queued
      && |r.value.events| == |viewers|
      && (forall i :: 0 <= i < |viewers| ==> r.value.events[i] == ViewerGranted(viewers[i]))
  {
    var callerErrors := GrantCallerErrors(l, caller);
    var each := GrantEach(l, viewers);
    GrantEachStopsAtFirstBad(l, viewers);
    if callerErrors == {} && each.Success? then each
    else Failure(callerErrors + (if each.Failure? then each.error else {}))
  }

  // ---------------------------------------------------------------- reads

  /** `canViewResults(a)`. */
  predicate CanViewResults(l: Ledger, a: Address) {
    a in l.granted
  }

  /** `isQueued(a)`. */
  predicate IsQueued(l: Ledger, a: Address) {
    a in l.queued
  }

  /** `hasVoted(a)`. */
  predicate HasVoted(l: Ledger, a: Address) {
    a in l.voted
  }

  /** `getQueuedViewers()`, as the set of addresses it lists. */
  function QueuedViewers(l: Ledger): set<Address> {
    l.queued
  }

  /** `getSurveyInfo()`: (title, startTime, endTime, finalized, optionsCount, voterCount). */
  type SurveyInfo = (string, nat, nat, bool, nat, nat)

  function GetSurveyInfo(l: Ledger): (info: SurveyInfo)
    ensures info.0 == l.title && info.1 == l.votingStart && info.2 == l.votingEnd
    ensures info.3 == l.finalized && info.4 == |l.options| && info.5 == l.totalVoters
  {
    (l.title, l.votingStart, l.votingEnd, l.finalized, |l.options|, l.totalVoters)
  }

  /** Both read gates of the tally getters: finalisation, then a grant. */
  function ReadGateErrors(l: Ledger, caller: Address): set<Error> {
    Guard(!l.finalized, ResultsLocked) + Guard(caller !in l.granted, NotAuthorized)
  }

  /**
   * `getTally(optionId)`: the encrypted handle of one option, only once the
   * survey is finalised and only to a granted viewer.
   */
  function GetTally(l: Ledger, caller: Address, optionId: nat): (r: Result<Tally, set<Error>>)
    requires Aligned(l)
    ensures r.Success? <==> l.finalized && caller in l.granted && optionId < |l.options|
    ensures !l.finalized ==> r.Failure? && ResultsLocked in r.error
    ensures caller !in l.granted ==> r.Failure? && NotAuthorized in r.error
    ensures optionId >= |l.options| ==> r.Failure? && InvalidOption in r.error
    ensures r.Failure? ==> r.error <= {ResultsLocked, NotAuthorized, InvalidOption}
    ensures r.Failure? ==>
      && (ResultsLocked in r.error <==> !l.finalized)
      && (NotAuthorized in r.error <==> caller !in l.granted)
      && (InvalidOption in r.error <==> optionId >= |l.options|)
    ensures r.Success? ==> r.value == l.tallies[optionId]
  {
    var errors := ReadGateErrors(l, caller) + Guard(optionId >= |l.options|, InvalidOption);
    if errors != {} then Failure(errors) else Success(l.tallies[optionId])
  }

  /** `getAllTallies()`: every option's handle, in option order, behind the same two gates. */
  function GetAllTallies(l: Ledger, caller: Address): (r: Result<seq<Tally>, set<Error>>)
    requires Aligned(l)
    ensures r.Success? <==> l.finalized && caller in l.granted
    ensures !l.finalized ==> r.Failure? && ResultsLocked in r.error
    ensures caller !in l.granted ==> r.Failure? && NotAuthorized in r.error
    ensures r.Failure? ==> r.error <= {ResultsLocked, NotAuthorized}
    ensures r.Failure? ==>
      && (ResultsLocked in r.error <==> !l.finalized)
      && (NotAuthorized in r.error <==> caller !in l.granted)
    ensures r.Success? ==>
      |r.value| == |l.options|
      && forall i :: 0 <= i < |l.options| ==> GetTally(l, caller, i) == Success(r.value[i])
  {
    var errors := ReadGateErrors(l, caller);
    if errors != {} then Failure(errors) else Success(l.tallies)
  }
}

=== FILE: survey_hooks.dfy ===
/**
 * The frontend's read hooks: how each raw contract read is turned into what
 * the pages consume. A read that has not arrived yet is `None`.
 */
module SurveyHooks {
  import opened Wrappers
  import opened Text
  import opened SurveyCouncil
  import opened JsNumber

  /** The label of each status code; a code outside the table has none. */
  function StatusLabel(code: nat): Option<string> {
    if code == 0 then Some("not_started")
    else if code == 1 then Some("active")
    else if code == 2 then Some("ended")
    else if code == 3 then Some("finalized")
    else None
  }

  /** `useVotingStatus`: no label until the read arrives, then the code's label. */
  function StatusOf(data: Option<nat>): (s: Option<string>)
    ensures data.None? ==> s.None?
    ensures data.Some? ==> s == StatusLabel(data.value)
  {
    match data
    case None => None
    case Some(code) => StatusLabel(code)
  }

  /** The label of a ledger status, as the frontend spells it. */
  function LabelOf(s: Status): string {
    match s
    case NotStarted => "not_started"
    case Active => "active"
    case Ended => "ended"
    case Finalized => "finalized"
  }

  /**
   * The status reaches the page intact: the label of the code the ledger
   * returns is the status's own label, a code has a label exactly when it is
   * one the ledger can return, and distinct labelled codes have distinct
   * labels.
   */
  lemma StatusLabelRoundTrip(l: Ledger, now: nat)
    ensures StatusOf(Some(StatusCode(VotingStatus(l, now)))) == Some(LabelOf(VotingStatus(l, now)))
    ensures forall code: nat :: StatusLabel(code).Some? <==> StatusOfCode(code).Some?
    ensures forall c1: nat, c2: nat :: StatusLabel(c1).Some? && StatusLabel(c1) == StatusLabel(c2) ==> c1 == c2
  {
  }

  datatype SurveyInfoView = SurveyInfoView(
    title: string, startTime: nat, endTime: nat, finalized: bool, optionsCount: nat, voterCount: nat)

  /**
   * `useSurveyInfo`: the getSurveyInfo tuple under field names, its four
   * integers passed through `Number()`, or nothing before the read arrives.
   */
  function DecodeSurveyInfo(data: Option<SurveyInfo>): (v: Option<SurveyInfoView>)
    ensures data.None? <==> v.None?
  {
    match data
    case None => None
    case Some(d) => Some(SurveyInfoView(d.0, ToNumber(d.1), ToNumber(d.2), d.3, ToNumber(d.4), ToNumber(d.5)))
  }

  /** Whether every integer of the tuple is a safe integer, so `Number()` keeps it. */
  predicate SafeInfo(d: SurveyInfo) {
    Safe(d.1) && Safe(d.2) && Safe(d.4) && Safe(d.5)
  }

  /**
   * Decoding the ledger's survey info names each field after what it is:
   * the title and finalisation flag as they are, and the voting window, the
   * option count and the voter count each exactly when it is a safe
   * integer, and otherwise off by at most half the spacing of the doubles
   * around it.
   */
  lemma DecodeSurveyInfoOfLedger(l: Ledger)
    ensures var v := DecodeSurveyInfo(Some(GetSurveyInfo(l))).value;
      && v.title == l.title && v.finalized == l.finalized
      && (Safe(l.votingStart) ==> v.startTime == l.votingStart)
      && (Safe(l.votingEnd) ==> v.endTime == l.votingEnd)
      && (Safe(|l.options|) ==> v.optionsCount == |l.options|)
      && (Safe(l.totalVoters) ==> v.voterCount == l.totalVoters)
      && Abs(v.endTime - l.votingEnd) <= Pow2(ExcessBits(l.votingEnd)) / 2
      && Abs(v.voterCount - l.totalVoters) <= Pow2(ExcessBits(l.totalVoters)) / 2
  {
  }

  /**
   * Decoding a tuple of safe integers loses nothing: the view re-assembles
   * into the tuple it came from. Above the safe range it can lose the low
   * bits: two deadlines one second apart decode alike.
   */
  lemma DecodeSurveyInfoInjective(d: SurveyInfo)
    ensures var v := DecodeSurveyInfo(Some(d)).value;
      SafeInfo(d) ==> (v.title, v.startTime, v.endTime, v.finalized, v.optionsCount, v.voterCount) == d
    ensures var late := (d.0, d.1, TWO_53 + 1, d.3, d.4, d.5);
      && late != (d.0, d.1, TWO_53, d.3, d.4, d.5)
      && DecodeSurveyInfo(Some(late)) == DecodeSurveyInfo(Some((d.0, d.1, TWO_53, d.3, d.4, d.5)))
  {
    RoundsAboveSafeRange();
  }

  /**
   * `useIsAdmin`: false while either address is missing or empty, otherwise
   * whether they are the same address up to letter case.
   */
  function IsAdmin(user: Option<string>, admin: Option<string>): (b: bool)
    ensures b <==> user.Some? && admin.Some? && user.value != "" && admin.value != ""
                   && |user.value| == |admin.value|
                   && forall i :: 0 <= i < |user.value| ==> LowerChar(user.value[i]) == LowerChar(admin.value[i])
  {
    if user.Some? && admin.Some? && user.value != "" && admin.value != "" then
      var u, a := ToLower(user.value), ToLower(admin.value);
      assert u == a <==> |u| == |a| && forall i :: 0 <= i < |u| ==> u[i] == a[i];
      u == a
    else false
  }

  /** Whether the connected account is the admin does not depend on who is asked first. */
  lemma IsAdminSymmetric(user: Option<string>, admin: Option<string>)
    ensures IsAdmin(user, admin) == IsAdmin(admin, user)
  {
  }

  /** An address written in any letter case is recognised as its lower-case self, and so is the admin. */
  lemma IsAdminCaseInsensitive(user: string, admin: string)
    requires user != "" && admin != ""
    ensures IsAdmin(Some(user), Some(admin)) == IsAdmin(Some(ToLower(user)), Some(admin))
    ensures IsAdmin(Some(user), Some(user))
  {
    ToLowerIdempotent(user);
  }

  /**
   * `useTimeRemaining` and `useTotalVoters`: `Number()` of the integer read,
   * or nothing before the read arrives. A safe integer reads back as
   * itself, zero exactly as zero, and any other integer to within half the
   * spacing of the doubles around it.
   */
  function ReadNumber(data: Option<nat>): (n: Option<nat>)
    ensures n.None? <==> data.None?
    ensures data.Some? && Safe(data.value) ==> n == data
    ensures data.Some? ==> (n.value == 0 <==> data.value == 0)
    ensures data.Some? ==> Abs(n.value - data.value) <= Pow2(ExcessBits(data.value)) / 2
  {
    match data
    case None => None
    case Some(v) => Some(ToNumber(v))
  }

  /**
   * The time-remaining read is zero exactly when the deadline has been
   * reached, whatever its size, so rounding never shows an open survey as
   * closed or the other way round; the voter count reads back exactly up to
   * the safe-integer bound.
   */
  lemma ReadLedgerNumbers(l: Ledger, now: nat)
    ensures ReadNumber(Some(TimeRemaining(l, now))).value == 0 <==> now >= l.votingEnd
    ensures Safe(l.totalVoters) ==> ReadNumber(Some(l.totalVoters)) == Some(l.totalVoters)
  {
  }
}

=== FILE: survey_list.dfy ===
/**
 * The survey list page: each card's status badge, its remaining-time text,
 * its category colour, and the defaults used while a survey's info is
 * missing.
 */
module SurveyList {
  import opened Wrappers
  import opened Text
  import opened SurveyCouncil
  import opened ContractConfig
  import opened JsNumber
  import Countdown

  datatype Badge = FinalizedBadge | EndedBadge | ActiveBadge

  function BadgeLabel(b: Badge): string {
    match b
    case FinalizedBadge => "Finalized"
    case EndedBadge => "Ended"
    case ActiveBadge => "Active"
  }

  /** `getStatusBadge`: finalisation first, then only the deadline; there is no not-started badge. */
  function StatusBadge(endTime: int, finalized: bool, now: int): (b: Badge)
    ensures finalized ==> b == FinalizedBadge
    ensures !finalized ==> (b == EndedBadge <==> now > endTime)
    ensures !finalized ==> (b == ActiveBadge <==> now <= endTime)
  {
    if finalized then FinalizedBadge
    else if now > endTime then EndedBadge
    else ActiveBadge
  }

  /** The badge the list page shows for each ledger status. */
  function BadgeFor(s: Status): Badge {
    match s
    case NotStarted => ActiveBadge
    case Active => ActiveBadge
    case Ended => EndedBadge
    case Finalized => FinalizedBadge
  }

  /**
   * On a ledger whose window opens before it closes, the list badge is the
   * contract's status, except that a survey that has not started yet is
   * shown as active.
   */
  lemma BadgeAgreesWithStatus(l: Ledger, now: nat)
    requires l.votingStart <= l.votingEnd
    ensures StatusBadge(l.votingEnd, l.finalized, now) == BadgeFor(VotingStatus(l, now))
  {
  }

  /** The structured content of the remaining-time text. */
  datatype Remaining = RemainingEnded | DaysHours(days: nat, hours: nat) | HoursOnly(hours: nat)

  /** `getTimeRemaining` before formatting. */
  function RemainingOf(endTime: int, now: int): Remaining {
    var remaining := endTime - now;
    if remaining <= 0 then RemainingEnded
    else
      var days := remaining / 86400;
      var hours := (remaining % 86400) / 3600;
      if days > 0 then DaysHours(days, hours) else HoursOnly(hours)
  }

  function RemainingText(r: Remaining): string {
    match r
    case RemainingEnded => "Ended"
    case DaysHours(d, h) => Decimal(d) + "d " + Decimal(h) + "h remaining"
    case HoursOnly(h) => Decimal(h) + "h remaining"
  }

  /**
   * The list page and the countdown agree: with time left, the list shows
   * the countdown's whole days (only when there is at least one) and its
   * hours, which are below 24; without time left it shows "Ended".
   */
  lemma RemainingMatchesCountdown(endTime: int, now: int)
    ensures var t := Countdown.CalculateTimeLeft(endTime, now);
      && (RemainingOf(endTime, now) == RemainingEnded <==> endTime - now <= 0)
      && (endTime - now > 0 && t.days > 0 ==> RemainingOf(endTime, now) == DaysHours(t.days, t.hours))
      && (endTime - now > 0 && t.days == 0 ==> RemainingOf(endTime, now) == HoursOnly(t.hours))
      && (RemainingOf(endTime, now).DaysHours? ==> RemainingOf(endTime, now).hours < 24)
      && (RemainingOf(endTime, now).HoursOnly? ==> RemainingOf(endTime, now).hours < 24)
  {
  }

  /** The text is "Ended" exactly when no time is left; otherwise it ends in "h remaining". */
  lemma RemainingTextEnded(endTime: int, now: int)
    ensures RemainingText(RemainingOf(endTime, now)) == "Ended" <==> endTime - now <= 0
    ensures endTime - now > 0 ==>
      var s := RemainingText(RemainingOf(endTime, now));
      |s| > 11 && s[|s| - 11..] == "h remaining"
  {
    var r := RemainingOf(endTime, now);
    if !r.RemainingEnded? {
      var s := RemainingText(r);
      var head := if r.DaysHours? then Decimal(r.days) + "d " + Decimal(r.hours) else Decimal(r.hours);
      assert s == head + "h remaining";
      assert s[|s| - 11..] == "h remaining";
      assert s != "Ended" by {
        assert |s| > 11;
      }
    }
  }

  const DEFAULT_CATEGORY_COLOR: string := "bg-gray-100 text-gray-700"

  const CATEGORY_COLORS: map<string, string> := map[
    "DeFi" := "bg-purple-100 text-purple-700",
    "Governance" := "bg-blue-100 text-blue-700",
    "Infrastructure" := "bg-green-100 text-green-700",
    "Tokenomics" := "bg-orange-100 text-orange-700",
    "Treasury" := "bg-pink-100 text-pink-700"
  ]

  /** `getCategoryColor`: the category's colour, or gray for any other category. */
  function CategoryColor(category: string): (c: string)
    ensures category in CATEGORY_COLORS ==> c == CATEGORY_COLORS[category]
    ensures category !in CATEGORY_COLORS ==> c == DEFAULT_CATEGORY_COLOR
  {
    if category in CATEGORY_COLORS then CATEGORY_COLORS[category] else DEFAULT_CATEGORY_COLOR
  }

  /** Every deployed survey's category has its own colour; none falls back to gray. */
  lemma DeployedCategoriesColored()
    ensures forall i :: 0 <= i < |SURVEYS| ==> CategoryColor(SURVEYS[i].category) != DEFAULT_CATEGORY_COLOR
  {
    forall i | 0 <= i < |SURVEYS|
      ensures CategoryColor(SURVEYS[i].category) != DEFAULT_CATEGORY_COLOR
    {
      assert SURVEYS[i].category in CATEGORY_COLORS;
      assert DEFAULT_CATEGORY_COLOR !in CATEGORY_COLORS.Values;
    }
  }

  datatype CardFields = CardFields(endTime: nat, finalized: bool, voterCount: nat)

  /**
   * What a card reads from `getSurveyInfo`: the deadline and voter count
   * through `Number()`, and the finalisation flag; 0 / false / 0 while the
   * info is missing.
   */
  function CardFieldsOf(info: Option<SurveyInfo>): (c: CardFields)
    ensures info.None? ==> c == CardFields(0, false, 0)
    ensures info.Some? ==> c.finalized == info.value.3
    ensures info.Some? && Safe(info.value.2) ==> c.endTime == info.value.2
    ensures info.Some? && Safe(info.value.5) ==> c.voterCount == info.value.5
    ensures info.Some? ==> (c.voterCount == 0 <==> info.value.5 == 0)
  {
    match info
    case None => CardFields(0, false, 0)
    case Some(i) => CardFields(ToNumber(i.2), i.3, ToNumber(i.5))
  }

  /**
   * A card fed the ledger's survey info shows the ledger's finalisation
   * flag, and its deadline and voter count whenever they are safe integers;
   * with a safe deadline it shows "Ended" exactly when the ledger's deadline
   * is reached. A card without info counts as ended for any positive clock.
   */
  lemma CardFieldsOfLedger(l: Ledger, now: nat)
    ensures var c := CardFieldsOf(Some(GetSurveyInfo(l)));
      && c.finalized == l.finalized
      && (Safe(l.votingEnd) ==> c.endTime == l.votingEnd)
      && (Safe(l.totalVoters) ==> c.voterCount == l.totalVoters)
      && (Safe(l.votingEnd) ==> (RemainingOf(c.endTime, now) == RemainingEnded <==> now >= l.votingEnd))
    ensures now > 0 ==> RemainingOf(CardFieldsOf(None).endTime, now) == RemainingEnded
  {
  }
}

=== FILE: text.dfy ===
/**
 * The small string operations the frontend relies on: ASCII case folding
 * (`toLowerCase` on hexadecimal addresses and handles), prefix tests
 * (`startsWith`), decimal rendering of naturals (`String(n)` and template
 * interpolation) and left padding (`padStart`).
 */
module Text {

  /** `toLowerCase` restricted to ASCII: only 'A'..'Z' change. */
  function LowerChar(c: char): (r: char)
    ensures 'A' <= c <= 'Z' ==> r as int == c as int + 32
    ensures !('A' <= c <= 'Z') ==> r == c
  {
    if 'A' <= c <= 'Z' then (c as int + 32) as char else c
  }

  function ToLower(s: string): (r: string)
    ensures |r| == |s|
    ensures forall i :: 0 <= i < |s| ==> r[i] == LowerChar(s[i])
  {
    if |s| == 0 then "" else [LowerChar(s[0])] + ToLower(s[1..])
  }

  /** Folding case twice is the same as folding it once. */
  lemma ToLowerIdempotent(s: string)
    ensures ToLower(ToLower(s)) == ToLower(s)
  {
  }

  predicate StartsWith(s: string, prefix: string) {
    |prefix| <= |s| && s[..|prefix|] == prefix
  }

  function Digit(d: nat): (c: char)
    requires d < 10
    ensures '0' <= c <= '9'
    ensures c as int - '0' as int == d
  {
    ('0' as int + d) as char
  }

  predicate IsDigits(s: string) {
    forall i :: 0 <= i < |s| ==> '0' <= s[i] <= '9'
  }

  /** The value of a string of decimal digits (the inverse of `Decimal`). */
  function DecimalValue(s: string): nat
    requires IsDigits(s)
  {
    if |s| == 0 then 0
    else DecimalValue(s[..|s| - 1]) * 10 + (s[|s| - 1] as int - '0' as int)
  }

  /** `String(n)` for a natural number: its decimal digits, no leading zeros. */
  function Decimal(n: nat): (s: string)
    ensures IsDigits(s)
    ensures 1 <= |s|
    ensures n < 10 <==> |s| == 1
    ensures 10 <= n < 100 <==> |s| == 2
    ensures |s| > 1 ==> s[0] != '0'
  {
    if n < 10 then [Digit(n)] else Decimal(n / 10) + [Digit(n % 10)]
  }

  /** Rendering a natural in decimal and reading it back gives the same natural. */
  lemma {:induction false} DecimalRoundTrip(n: nat)
    ensures DecimalValue(Decimal(n)) == n
  {
    var s := Decimal(n);
    if n >= 10 {
      assert s[..|s| - 1] == Decimal(n / 10);
      DecimalRoundTrip(n / 10);
    }
  }

  function Repeat(c: char, k: nat): (r: string)
    ensures |r| == k
    ensures forall i :: 0 <= i < k ==> r[i] == c
  {
    if k == 0 then "" else [c] + Repeat(c, k - 1)
  }

  /** `s.padStart(width, fill)`: prepend `fill` until `s` is `width` long. */
  function PadStart(s: string, width: nat, fill: char): (r: string)
    ensures |r| == if |s| >= width then |s| else width
    ensures r[|r| - |s|..] == s
    ensures forall i :: 0 <= i < |r| - |s| ==> r[i] == fill
  {
    if |s| >= width then s else Repeat(fill, width - |s|) + s
  }

  /** Leading zeros do not change the value of a digit string. */
  lemma {:induction false} LeadingZerosValue(k: nat, s: string)
    requires IsDigits(s)
    ensures IsDigits(Repeat('0', k) + s)
    ensures DecimalValue(Repeat('0', k) + s) == DecimalValue(s)
  {
    var z := Repeat('0', k);
    if |s| == 0 {
      assert z + s == z;
      ZerosValue(k);
    } else {
      var t := s[..|s| - 1];
      assert (z + s)[..|z + s| - 1] == z + t;
      LeadingZerosValue(k, t);
    }
  }

  lemma {:induction false} ZerosValue(k: nat)
    ensures IsDigits(Repeat('0', k))
    ensures DecimalValue(Repeat('0', k)) == 0
  {
    if k > 0 {
      var z := Repeat('0', k);
      assert z[..k - 1] == Repeat('0', k - 1);
      ZerosValue(k - 1);
    }
  }

  /**
   * `String(n).padStart(2, "0")` for a clock field below 100: exactly two
   * digits, the tens then the units, and it reads back as `n`.
   */
  lemma TwoDigits(n: nat)
    requires n < 100
    ensures PadStart(Decimal(n), 2, '0') == [Digit(n / 10), Digit(n % 10)]
    ensures IsDigits(PadStart(Decimal(n), 2, '0'))
    ensures DecimalValue(PadStart(Decimal(n), 2, '0')) == n
  {
    var s := Decimal(n);
    if n < 10 {
      assert PadStart(s, 2, '0') == ['0'] + s;
    } else {
      assert s == Decimal(n / 10) + [Digit(n % 10)];
    }
    DecimalRoundTrip(n);
    LeadingZerosValue(2 - |s|, s);
    if |s| >= 2 {
      assert PadStart(s, 2, '0') == s;
    } else {
      assert PadStart(s, 2, '0') == Repeat('0', 2 - |s|) + s;
    }
  }
}

=== FILE: wrappers.dfy ===
/** Failure-carrying datatypes shared by every module of the model. */
module Wrappers {

  /** A value that may be absent: JavaScript's `undefined`/`null`, or a missing key. */
  datatype Option<+T> = None | Some(value: T) {

    /** The value, or `default` when absent (JavaScript's `??`). */
    function GetOr(default: T): T {
      match this
      case Some(v) => v
      case None => default
    }
  }

  /** Either the successful value of an operation or the reason it was rejected. */
  datatype Result<+T, +E> = Success(value: T) | Failure(error: E)
}
